=== FILE: README.md ===
# Telco automation clients — Dafny model

This project is a Dafny model of the logic inside the Telco automation scripts. Those scripts are otherwise glue around HTTP and SDK calls. Five pieces are modelled:

- **The CBAM authenticated connection.** Both copies are covered: `nokia/cbamlibrary/src/CBAMLibrary.py` and `nokia/cbamlibrary/src/connection.py`.
  - It gets tokens with the OAuth 2.0 client-credentials grant (section 4.4 of RFC 6749).
  - It refreshes them with the refresh-token grant (section 6 of RFC 6749).
  - It injects `Authorization: Bearer` headers (section 2.1 of RFC 6750).
  - On a 401 it refreshes once and retries. The `refresh_token_used` flag governs this, and it is cleared only after a response passes `raise_for_status`.
- **The catalog version selector and VNF package onboarding.**
  - `SOL005` follows the VNF package management interface of ETSI GS NFV-SOL 005, clause 9. It creates the package resource, then PUTs `package_content`.
  - `v18` makes one multipart POST.
- **The CBAM library helpers:**
  - request-body coercion;
  - the create and terminate payloads;
  - the instantiation-state polling loop;
  - the lookup of a VNF by name.
- **The OpenStack resource check:**
  - the flavour keys of an NSD;
  - the per-flavour requirement sum, where disk counts as disk + ephemeral + swap;
  - the first-fit choice of a hypervisor.
- **The OpenBaton deployment client's configuration:**
  - the entrypoint built from the rc variables;
  - truthy command-line overrides;
  - the ordered missing-variable check and the password sentinel;
  - token-reply handling, request shaping, and the created-id check.

HTTP is scripted. A `Connection.Server` holds a queue of resource replies and a queue of token-endpoint replies. Each dispatch consumes the next reply. A call that finds its queue empty fails as a connection failure. Everything the client puts on the wire is recorded in order, in the outcome's `trace`. Python exceptions are `Results.Result` errors that carry the exception class and its text. The client state is the record `Client(accessToken, refreshToken, refreshTokenUsed)`.

The connection behaves as follows, and the model proves each point:

- One `request` makes at most two dispatches and one token request.
- A due refresh is followed by exactly one retry. The retry carries `Bearer <new token>` and every other header of the first dispatch.
- A 401 on the retry is raised, not refreshed.
- An error after a granted refresh leaves the flag set (`Connection.StickyFlag`). The next call's 401 is then raised with no refresh, and the flag stays set. If the token has expired by then, the client cannot refresh again: every later call also gets a 401.

Three points of the code's behaviour are easy to miss:

- The flag is not reset at the start of each call. It is reset only after a successful response. The library's keyword documentation (`nokia/cbamlibrary/src/kw_documentation.py`, lines 80-81) says the tokens "will be refreshed automatically when they expire". Once the flag has stuck, as in `Connection.StickyFlag`, that no longer holds.
- A failed SOL005 upload raises the connection's error. The error does not carry the id of the package resource already created.
- A caller-supplied `Authorization` header overrides the injected one on the first dispatch. Before the retry it is removed, so the retry carries the new token.

## Model

| member | source | states |
|---|---|---|
| `Connection.RequestToken` | nokia/cbamlibrary/src/CBAMLibrary.py:141-151 | one POST to the token endpoint, whose form is the grant defaults overridden by `options`; a non-200 raises "Token request failed: " + body and keeps the tokens; success iff 200 with both tokens, replacing both; the retry flag is untouched |
| `Connection.Connect` | nokia/cbamlibrary/src/connection.py:18-24 | construction makes one client-credentials request with the client id and secret; on success it holds exactly the returned token pair with the flag cleared; on failure it raises exactly what that token request raised |
| `Connection.RefreshAccessToken` | nokia/cbamlibrary/src/connection.py:33-40 | a refresh-token grant carrying the current refresh token; the flag is raised iff the token request succeeded, else left as it was; a granted refresh replaces both the access and the refresh token with the reply's |
| `Connection.Url` | nokia/cbamlibrary/src/connection.py:43 | the request URL is "https://", then the host, then the path |
| `Connection.MergeHeaders` | nokia/cbamlibrary/src/connection.py:44-45 | the headers are the injected bearer header plus every caller header, and the caller wins on a clash |
| `Connection.Request` | nokia/cbamlibrary/src/CBAMLibrary.py:147-169 | 1 to 3 sends: a dispatch, then a token request iff a refresh is due (the first reply is 401 and the flag is clear), then a retry dispatch iff that refresh was granted; every dispatch goes to the same URL with the same body and options; success implies a non-error status and a cleared flag; an error leaves the flag as it was, or set after a granted refresh; without a refresh, an error happens iff `raise_for_status` raises; after a granted refresh the client holds the new access and refresh tokens; a refresh that fails in any way (non-200, missing token key, no reply) is what the call raises; the server script loses one reply per dispatch and one token reply per token request |
| `Connection.RequestCounts` | nokia/cbamlibrary/src/CBAMLibrary.py:157-169 | one call makes at most 2 dispatches and 1 token request, and after a success the script left is the given one minus one reply per dispatch and one token reply per token request |
| `Connection.RetryCarriesNewToken` | nokia/cbamlibrary/src/CBAMLibrary.py:159-166 | after a 401 and a granted refresh there are exactly two dispatches; the retry's Authorization is `Bearer <new access token>`, and all its other headers, the caller's included, equal the first dispatch's; a passing retry is the result and clears the flag |
| `Connection.DoubleUnauthorized` | nokia/cbamlibrary/src/connection.py:47-52 | a second 401 is raised as an HTTP 401 error after 2 dispatches and 1 token request, and leaves the flag set |
| `Connection.RefusedRefreshRaises` | nokia/cbamlibrary/src/CBAMLibrary.py:148-163 | a refused refresh after a 401 is raised as "Token request failed: " + the endpoint's text, after one dispatch and one token request, with no retry and the flag still clear |
| `Connection.RetryRaisesForStatus` | nokia/cbamlibrary/src/CBAMLibrary.py:162-169 | after a granted refresh the call fails iff `raise_for_status` raises on the retry's reply, with that reply's HTTP error; otherwise the retry's reply is the result |
| `Connection.StickyFlag` | nokia/cbamlibrary/src/connection.py:47-53 | after an error that followed a granted refresh, the next call's 401 gets no token request and is raised after one dispatch, with the flag still set |
| `Connection.Get` | nokia/cbamlibrary/src/connection.py:56-57 | `get` dispatches first with the verb "get", carrying the caller's path, headers and body unchanged into that dispatch |
| `Connection.Post` | nokia/cbamlibrary/src/connection.py:59-60 | `post` dispatches first with the verb "post", carrying the caller's path, headers and body unchanged into that dispatch |
| `Connection.Put` | nokia/cbamlibrary/src/CBAMLibrary.py:177-178 | `put` dispatches first with the verb "put"; it exists only in the library copy of the connection |
| `Connection.Delete` | nokia/cbamlibrary/src/connection.py:62-63 | `delete` dispatches first with the verb "delete", carrying the caller's path, headers and body unchanged into that dispatch |
| `Connection.Patch` | nokia/cbamlibrary/src/connection.py:65-66 | `patch` dispatches first with the verb "patch", carrying the caller's path, headers and body unchanged into that dispatch |
| `Catalog.GetVersion` | nokia/cbamlibrary/src/CBAMLibrary.py:221-226 | selection succeeds iff the tag is exactly one of the supported tags, and yields the version of that tag; any other tag raises the ValueError naming it and listing the supported tags |
| `Catalog.SelectionRoundTrip` | nokia/cbamlibrary/src/catalog.py:15-25 | every version is selected by its own tag, and the two endpoints differ |
| `Catalog.RejectionText` | nokia/cbamlibrary/src/CBAMLibrary.py:221-226 | the rejection text ends with `['SOL005', 'v18']`; lookup is case-sensitive, so "sol005" and "V18" are rejected |
| `Catalog.PackageId` | nokia/cbamlibrary/src/CBAMLibrary.py:195 | a string id is used as it is and an integer id in decimal; a reply without `id` raises KeyError 'id' |
| `Catalog.UploadContent` | nokia/cbamlibrary/src/CBAMLibrary.py:195-203 | after a successful creation, the PUT goes to `<endpoint>/<id>/package_content` with the id the creation reply carries, and is issued iff that id can be read; the step succeeds iff the PUT does, a failed PUT's error being the result; success returns the creation reply and leaves the flag clear |
| `Catalog.Onboard` | nokia/cbamlibrary/src/CBAMLibrary.py:187-213 | the first call is SOL005's creation POST or v18's multipart POST; SOL005 issues the upload PUT iff the creation succeeded with a readable id, and that PUT targets the created package; onboarding succeeds iff the last call issued succeeds, and a failed call's error is the result; v18 issues one call; at most two dispatches per call; success returns the first reply's body and leaves the flag clear |
| `Cbam.ParseJsonBody` | nokia/cbamlibrary/src/CBAMLibrary.py:106-118 | a list is joined with "\n", and a non-string line raises TypeError; a string is a file reference iff it ends in ".json" and otherwise passes unchanged; anything else is serialised |
| `Cbam.SingleLineList` | nokia/cbamlibrary/src/CBAMLibrary.py:109-116 | a one-line list is treated exactly like that line |
| `Cbam.LinesOpenFileWhenLastLineIsFileName` | nokia/cbamlibrary/src/CBAMLibrary.py:109-114 | joined lines are opened as a file iff the last line ends in ".json" |
| `Cbam.CreateVnfPayload` | nokia/cbamlibrary/src/CBAMLibrary.py:35-41 | the payload always holds `vnfdId` and `vnfInstanceName`; it holds `vnfInstanceDescription` exactly when a description is given |
| `Cbam.CreateVnfCall` | nokia/cbamlibrary/src/CBAMLibrary.py:35-43 | a JSON POST to the instance collection whose body is exactly the create payload, so it has a description iff one was given |
| `Cbam.TerminateVnfPayload` | nokia/cbamlibrary/src/CBAMLibrary.py:89-95 | `terminationType` is GRACEFUL when omitted and the passed value otherwise, an explicit `None` sent as JSON null; extra keyword arguments become `additionalParams`; `gracefulTerminationTimeout` is present exactly when given |
| `Cbam.TerminateVnfCall` | nokia/cbamlibrary/src/CBAMLibrary.py:89-96 | a POST of that payload to `/vnflcm/v1/vnf_instances/<id>/terminate` |
| `Cbam.PollLimitIsFirstExit` | nokia/cbamlibrary/src/CBAMLibrary.py:122-123 | for a positive interval, ceil(timeout/interval) (or 0 when timeout ≤ 0) is the unique first index at which `index * interval < timeout` fails |
| `Cbam.PollInstantiationStatus` | nokia/cbamlibrary/src/CBAMLibrary.py:120-129 | polling stops at the first document in the target state; every earlier poll read another state, and every poll ran while `index * interval < timeout`; a negative interval raises the sleep's ValueError right after the first pending poll, and only then; a time-out raises the fixed message after exactly ceil(timeout/interval) polls for a positive interval (e.g. 2 polls for 10 and 5); with enough pending documents, it does time out |
| `Cbam.PollOutcomeBeforeLimit` | nokia/cbamlibrary/src/CBAMLibrary.py:123-126 | a poll that stopped before the loop condition failed stopped within the first ceil(timeout/interval) polls |
| `Cbam.FirstNamed` | nokia/cbamlibrary/src/CBAMLibrary.py:60-63 | returns the first VNF whose `vnfInstanceName` equals the name; raises "No VNF with name …" iff every VNF has another name; otherwise raises the lookup error of the first VNF without a readable name |
| `Cbam.GetVnfByName` | nokia/cbamlibrary/src/CBAMLibrary.py:58-63 | a listed array is scanned as above; an empty listing finds nothing; a scalar listing raises TypeError |
| `Resources.FlavourKeyValues` | Openstack/check_resources.py:20 | succeeds iff every flavour entry has a `flavour_key`, yielding those keys in order; otherwise raises the error of the first entry without one |
| `Resources.Joinable` | Openstack/check_resources.py:22 | the keys pass the progress line's join iff they are all strings |
| `Resources.VnfdFlavours` | Openstack/check_resources.py:19-22 | a vnfd succeeds iff it is a dict with a `name` and an iterable `deployment_flavour` of dicts holding string `flavour_key`s, other keys allowed; it then yields those keys in order; a missing `deployment_flavour` is reported before a missing `name` |
| `Resources.VnfdsFlavours` | Openstack/check_resources.py:19-21 | succeeds iff every vnfd does, yielding their keys concatenated in vnfd order; otherwise raises the first failing vnfd's error |
| `Resources.ScanNsd` | Openstack/check_resources.py:18-22 | the `try` body succeeds iff the document is a dict whose `vnfd` iterates over well-formed vnfds, and yields the concatenated keys; its errors are KeyError or TypeError |
| `Resources.GetFlavorsFromNsd` | Openstack/check_resources.py:12-27 | succeeds iff the NSD is well-formed (extra keys allowed), returning every vnfd's `deployment_flavour[*].flavour_key` in vnfd order, duplicates kept; a KeyError becomes "NSD json is missing key: " + its text and a TypeError "NSD json is invalid. Exception message: " + its text, both as ValueError |
| `Resources.PrefixesDiffer` | Openstack/check_resources.py:24-26 | the missing-key and invalid messages can never be equal, so the message tells the two error kinds apart |
| `Resources.ConcatKeysAppend` | Openstack/check_resources.py:19-21 | the flavours of two runs of vnfds are the first run's followed by the second's |
| `Resources.AddRequirement` | Openstack/check_resources.py:51-56 | ram and vcpus grow by the flavour's amounts; disk grows by disk + ephemeral + swap, and an empty swap counts as 0 |
| `Resources.TotalAppend` | Openstack/check_resources.py:36-38 | the requirements of two request lists are the sum of each list's requirements, so duplicates count each time |
| `Resources.TotalExtend` | Openstack/check_resources.py:36-38 | one more loop step adds that flavour to the running total |
| `Resources.TotalOrderIndependent` | Openstack/check_resources.py:36-38 | swapping two runs of requested flavours leaves the total unchanged |
| `Resources.TotalRemove` | Openstack/check_resources.py:36-38 | taking one flavour out of a list takes exactly its own needs off the total |
| `Resources.TotalPermutation` | Openstack/check_resources.py:36-38 | any reordering of the requested flavours, repeats kept, needs the same total |
| `Resources.GetFlavorByName` | Openstack/check_resources.py:44-49 | returns the first flavour with an equal name; raises "No flavor was found with name: " + name iff there is none |
| `Resources.GetSystemRequirementsForFlavors` | Openstack/check_resources.py:29-38 | starting from zero, the result is the sum of the requested flavours' needs; it fails iff some name is unknown, raising for the first unknown one |
| `Resources.Placement` | Openstack/check_resources.py:61-66 | the index of the first hypervisor that fits, or the list length; no earlier hypervisor fits |
| `Resources.CheckHypervisorResources` | Openstack/check_resources.py:58-69 | the first hypervisor with memory_free ≥ ram, vcpus − vcpus_used ≥ vcpus and local_disk_free ≥ disk; raises "No hypervisor with required resources available" iff none fits |
| `Resources.PlacementMonotone` | Openstack/check_resources.py:62-64 | componentwise-smaller requirements are placed at the same hypervisor or an earlier one, and they are placed whenever the larger ones are |
| `OpenBaton.SetEnvVariables` | fokus-openbaton/python/nsd_deployment.py:16-24 | the entrypoint is "http://" + ip + ":" + port iff both are non-empty, and None otherwise; the other settings are the variables as read |
| `OpenBaton.AddArguments` | fokus-openbaton/python/nsd_deployment.py:26-30 | a truthy argument replaces its setting; a None or empty argument leaves it unchanged |
| `OpenBaton.AddArgumentsIdempotent` | fokus-openbaton/python/nsd_deployment.py:26-30 | applying the same arguments twice has the effect of applying them once |
| `OpenBaton.MissingAmong` | fokus-openbaton/python/nsd_deployment.py:34-38 | a name is reported iff it is required and its setting is falsy, and the report keeps the order of the required names |
| `OpenBaton.AllMissingInOrder` | fokus-openbaton/python/nsd_deployment.py:34-38 | with nothing set, the report is api_entrypoint, username, password, project_id |
| `OpenBaton.NoneSetAllMissing` | fokus-openbaton/python/nsd_deployment.py:36-38 | when no listed setting is truthy, every listed name is reported, in order |
| `OpenBaton.CheckVariables` | fokus-openbaton/python/nsd_deployment.py:32-42 | a password of "$password" or None raises "Password not set…" before anything else; otherwise the falsy settings are reported joined with ", "; it passes iff all four settings are truthy and the password is not the sentinel |
| `OpenBaton.ArgumentsTakePrecedence` | fokus-openbaton/python/nsd_deployment.py:10-13 | with all four arguments given and a real password, the checked settings are the arguments, whatever the rc file holds |
| `OpenBaton.TokenRequestFor` | fokus-openbaton/python/nsd_deployment.py:44-48 | the token request goes to entrypoint + "/oauth/token", form-encoded, with basic authentication as the fixed OpenBaton client; its body is `username=<user>&password=<password>&grant_type=password`, field by field, with the checked credentials as given |
| `OpenBaton.RetrieveToken` | fokus-openbaton/python/nsd_deployment.py:49-53 | a token is granted iff the status is 200 and the body has a `value`, which is the token; a 400 raises "Authentication failed: " + detailMessage; any other status raises "Unexpected HTTP response status: " + the code; the generic exception is raised exactly on those two paths, and every other failure is a KeyError or TypeError |
| `OpenBaton.Request` | fokus-openbaton/python/nsd_deployment.py:55-61 | the URL is entrypoint + "/api/v1" + path; the headers are the bearer token and project id, and caller headers override them key by key |
| `OpenBaton.GetCreatedId` | fokus-openbaton/python/nsd_deployment.py:87-91 | yields `json["id"]` iff the status is 201 and the body has an id; a non-201 raises "Unexpected HTTP response status: " + the code |
| `OpenBaton.NewApiHandler` | fokus-openbaton/python/nsd_deployment.py:10-14 | the handler is built iff the checks pass on the argument-overridden environment and the token endpoint grants the request built from the checked settings, the token being read from that very reply; a failed check is raised first, otherwise the token error |
| `OpenBaton.HandlerRequests` | fokus-openbaton/python/nsd_deployment.py:10-21 | a built handler shapes requests under the argument's entrypoint, or else under "http://" + ip + ":" + port from the rc file, and can do so iff the granted token is a string |

## Left out

- `OpenBaton.TokenRequestFor`: the form body is concatenated as the source does, without URL-encoding; a username or password holding `&` or `=` is sent as it is.

- Real HTTP, `requests` internals, TLS, openstacksdk and dotenv are not modelled. Replies, the environment, and the flavour and hypervisor listings are inputs instead.
- HTTP error messages keep the status code, the error class and the URL. They drop the reason phrase, which comes from the server.
- The extra keyword arguments (`global_kwargs`) are recorded on every send. A clash with a call's own keywords raises TypeError in Python; the model does not cover that.
- Token-endpoint bodies are modelled by their two token fields only. A missing field raises KeyError. Non-string token values are not modelled.
- Python's TypeError texts are not reproduced word for word. KeyError texts are reproduced as `'<key>'`, which ignores repr escaping.
- JSON serialisation (`json.dumps`) is abstract: `SerializedData(value)` stands for its output. JSON floats are not modelled.
- `Catalog.GetVersion` takes only tags that do not start with `_`. In Python such tags would reach private attributes through `getattr`. It follows the instance-based copy in `nokia/cbamlibrary/src/CBAMLibrary.py`. The class-based copy in `nokia/cbamlibrary/src/catalog.py` looks tags up on the class itself, so the tag "mro" returns the metaclass method `type.mro` instead of raising. The model rejects "mro".
- The two catalogs are shared class-level instances in Python. The model represents them as plain values, so it does not state their identity.
- File opening, `time.sleep`, prints, argument parsing and `connect_to_cbam`'s environment fallback are not modelled.
- `set_wait_until_timeout` is not modelled. It sets the `self.timeout` attribute, which the wait keywords read when no timeout is given. The class default `wait_until_timeout` is never read. The model takes the timeout as an explicit parameter.
- The two wait keywords only choose the target state ("INSTANTIATED" or "NOT_INSTANTIATED"). That state is the `status` parameter of `Cbam.PollInstantiationStatus`.
- `Cbam.PollInstantiationStatus` reads scripted VNF documents. Transport errors of the `get_vnf` calls behind it are covered by `Connection.Request`, not repeated here.
- A file body is modelled by its path. On a retry, Python re-sends the same file object, which the first dispatch has already read. The model does not track how much of a file has been read.
- `Cbam.PollInstantiationStatus`: with an interval of 0 and a positive timeout, the source polls until the state is reached, however long that takes. The model stops there too, or when the scripted documents run out. A negative interval is modelled: the first sleep raises ValueError.
- `int()` conversion of keyword arguments passed as strings is not modelled. Timeouts and intervals are integers.
- `Catalog.Onboard` refuses package ids that are neither strings nor integers with a TypeError. Python's `str()` would format them instead.
- The CBAM keywords `get_vnf`, `get_vnfs`, `get_vnfd`, `get_vnfds`, `delete_vnf`, `delete_vnfd`, `instantiate_vnf`, `modify_vnf` and `disable_insecure_request_warning` are not modelled separately. Each is one request to a fixed path through `Connection.Request`, and the last only silences a warning.
- The missing-hypervisor path files a Jira issue before raising. The issue is not modelled, and neither is `print_hypervisor_info`.
- `upload_nsd`, `deploy_nsd` and `parse_args` are not modelled: they are file reading and two POSTs around `OpenBaton.GetCreatedId`. `add_arguments` also copies `nsd_path` and `rc_path` onto the handler, but nothing reads them.
- `openstack/openstacklibrary/OpenStackLibrary.py`, `Openstack/image_import.py`, `JIRA/jira_issue.py`, the documentation generators and `nokia/cbamlibrary/CBAMLibrary.py` are not part of this model. They are SDK pass-throughs, module-level scripts and docstring plumbing.

=== FILE: catalog.dfy ===
/** Catalog version selection and VNF package onboarding. `SOL005` follows
    the VNF package management interface of ETSI GS NFV-SOL 005 (clause 9):
    create an individual package resource, then upload its content; `v18`
    uploads the package in one multipart request. */
module Catalog {
  import opened Results
  import opened Text
  import opened JsonValues
  import opened Http
  import opened Connection

  datatype CatalogVersion = SOL005 | V18 {

    /** The attribute name the version is selected by. */
    function Tag(): string {
      match this
      case SOL005 => "SOL005"
      case V18 => "v18"
    }

    /** The package repository base path. */
    function Endpoint(): string {
      match this
      case SOL005 => "/vnfpkgm/v1/vnf_packages"
      case V18 => "/api/catalog/adapter/vnfpackages"
    }
  }

  /** The public attribute names of the catalog, in declaration order. */
  const SupportedVersions: seq<string> := ["SOL005", "v18"]

  function UnknownVersion(tag: string): Error {
    Error(ValueError, "No such catalog version: '" + tag + "'. Supported versions are: " + ListRepr(SupportedVersions))
  }

  /** `_get_version(tag)`: the attribute of that exact name, or `ValueError`
      listing the supported tags. Tags starting with `_` would reach Python's
      private attributes and are outside the model. */
  function GetVersion(tag: string): (r: Result<CatalogVersion>)
    requires |tag| == 0 || tag[0] != '_'
    ensures r.Ok? <==> tag in SupportedVersions
    ensures r.Ok? ==> r.value.Tag() == tag
    ensures r.Err? ==> r == Err(UnknownVersion(tag))
  {
    if tag == "SOL005" then Ok(SOL005)
    else if tag == "v18" then Ok(V18)
    else Err(UnknownVersion(tag))
  }

  /** Every version is selected by its own tag, and the two versions use
      different endpoints. */
  lemma SelectionRoundTrip(v: CatalogVersion)
    ensures GetVersion(v.Tag()) == Ok(v)
    ensures SOL005.Endpoint() != V18.Endpoint()
  {
    assert SOL005.Endpoint()[1] != V18.Endpoint()[1];
  }

  /** The rejection text lists exactly the two supported tags, and matching
      is case-sensitive. */
  lemma RejectionText()
    ensures forall tag :: UnknownVersion(tag).message ==
              "No such catalog version: '" + tag + "'. Supported versions are: " + "['SOL005', 'v18']"
    ensures GetVersion("sol005").Err? && GetVersion("V18").Err?
  {
    var quoted := seq(|SupportedVersions|, i requires 0 <= i < |SupportedVersions| => Quote(SupportedVersions[i]));
    assert quoted[0] == "'SOL005'" && quoted[1] == "'v18'";
    assert quoted == ["'SOL005'", "'v18'"];
    assert quoted[1..] == ["'v18'"];
    assert Join(quoted, ", ") == "'SOL005'" + ", " + "'v18'";
    assert ListRepr(SupportedVersions) == "['SOL005', 'v18']";
  }

  /** The calls onboarding issued through the connection, the result of the
      first one, and the overall outcome. */
  datatype Onboarding = Onboarding(calls: seq<Call>, created: Result<HttpReply>, outcome: Outcome<Json>)

  /** `str(id)` as the f-string formats a package id. Only string and integer
      ids are modelled; others are refused as a `TypeError`. */
  function IdText(id: Json): Result<string> {
    match id
    case JStr(s) => Ok(s)
    case JInt(i) => Ok(Decimal(i))
    case _ => Err(Error(TypeError, "package id is neither a string nor an integer"))
  }

  /** `response['id']` formatted into the upload path. */
  function PackageId(body: Json): (r: Result<string>)
    ensures r.Ok? ==> Subscript(body, "id").Ok? && IdText(Subscript(body, "id").value) == r
    ensures body.JObj? && "id" in body.fields && body.fields["id"].JStr? ==> r == Ok(body.fields["id"].s)
    ensures body.JObj? && "id" in body.fields && body.fields["id"].JInt? ==> r == Ok(Decimal(body.fields["id"].i))
    ensures body.JObj? && "id" !in body.fields ==> r == Err(MissingKey("id"))
  {
    var id :- Subscript(body, "id");
    IdText(id)
  }

  function CreateCall(v: CatalogVersion): Call {
    Call(POST, v.Endpoint(), None, NoBody)
  }

  function UploadCall(id: string, vnfd: string): Call {
    Call(PUT, SOL005.Endpoint() + "/" + id + "/package_content",
         Some(map["Content-Type" := "application/zip"]), FileData(vnfd))
  }

  /** The first call of `onboard_vnfd`: SOL005 creates the package resource,
      v18 posts the file as the multipart field `content`. */
  function FirstCall(v: CatalogVersion, vnfd: string): Call {
    if v == SOL005 then CreateCall(v) else Call(POST, v.Endpoint(), None, MultipartFile("content", vnfd))
  }

  /** SOL005's second step, after `create` succeeded with `first`: PUT the
      file to the package the creation reply names, then return that reply. */
  function UploadContent(cfg: Config, create: Call, first: Outcome<HttpReply>, vnfd: string): (r: Onboarding)
    requires first.result.Ok?
    ensures r.created == first.result
    ensures 1 <= |r.calls| <= 2 && r.calls[0] == create
    ensures |r.calls| == 2 <==> PackageId(first.result.value.body).Ok?
    ensures |r.calls| == 2 ==> r.calls[1] == UploadCall(PackageId(first.result.value.body).value, vnfd)
    ensures |r.calls| == 1 ==> r.outcome == Outcome(first.client, first.server, first.trace,
                                                      Err(PackageId(first.result.value.body).error))
    ensures Dispatches(r.outcome.trace) <= Dispatches(first.trace) + 2
    ensures r.outcome.result.Ok? ==> |r.calls| == 2 && !r.outcome.client.refreshTokenUsed
    ensures r.outcome.result.Ok? ==> r.outcome.result.value == first.result.value.body
    ensures |r.calls| == 2 ==>
              var o2 := Request(cfg, first.client, first.server, r.calls[1]);
              && (r.outcome.result.Ok? <==> o2.result.Ok?)
              && (o2.result.Err? ==> r.outcome.result == Err(o2.result.error))
  {
    var body := first.result.value.body;
    match PackageId(body)
    case Err(e) => Onboarding([create], first.result, Outcome(first.client, first.server, first.trace, Err(e)))
    case Ok(idText) =>
      var upload := UploadCall(idText, vnfd);
      var o2 := Request(cfg, first.client, first.server, upload);
      RequestCounts(cfg, first.client, first.server, upload);
      CountsAppend(first.trace, o2.trace);
      var result := if o2.result.Ok? then Ok(body) else Err(o2.result.error);
      Onboarding([create, upload], first.result, Outcome(o2.client, o2.server, first.trace + o2.trace, result))
  }

  /** `onboard_vnfd(vnfd)`. SOL005: POST to the endpoint, then PUT the file to
      `<endpoint>/<id>/package_content`, where the id is the one the creation
      reply carries, and return the creation reply; v18: one multipart POST
      with the file as `content`, returning its reply. */
  function Onboard(cfg: Config, c: Client, s: Server, v: CatalogVersion, vnfd: string): (r: Onboarding)
    ensures 1 <= |r.calls| <= 2
    ensures r.calls[0] == FirstCall(v, vnfd)
    ensures r.created == Request(cfg, c, s, FirstCall(v, vnfd)).result
    ensures v == V18 ==> |r.calls| == 1
    ensures |r.calls| == 2 <==> v == SOL005 && r.created.Ok? && PackageId(r.created.value.body).Ok?
    ensures |r.calls| == 2 ==> r.calls[1] == UploadCall(PackageId(r.created.value.body).value, vnfd)
    ensures v == SOL005 && r.outcome.result.Ok? ==> |r.calls| == 2
    ensures r.created.Err? ==> r.outcome.result == Err(r.created.error)
    ensures Dispatches(r.outcome.trace) <= 2 * |r.calls|
    ensures r.outcome.result.Ok? ==> !r.outcome.client.refreshTokenUsed
    ensures r.outcome.result.Ok? ==> r.created.Ok? && r.outcome.result.value == r.created.value.body
    ensures v == V18 ==> (r.outcome.result.Ok? <==> r.created.Ok?)
    ensures |r.calls| == 2 ==>
              var o1 := Request(cfg, c, s, r.calls[0]);
              var o2 := Request(cfg, o1.client, o1.server, r.calls[1]);
              && (r.outcome.result.Ok? <==> o2.result.Ok?)
              && (o2.result.Err? ==> r.outcome.result == Err(o2.result.error))
  {
    var create := FirstCall(v, vnfd);
    var o1 := Request(cfg, c, s, create);
    RequestCounts(cfg, c, s, create);
    match o1.result
    case Err(e) => Onboarding([create], o1.result, Outcome(o1.client, o1.server, o1.trace, Err(e)))
    case Ok(reply) =>
      if v == V18 then Onboarding([create], o1.result, Outcome(o1.client, o1.server, o1.trace, Ok(reply.body)))
      else UploadContent(cfg, create, o1, vnfd)
  }
}

=== FILE: cbam.dfy ===
/** The CBAM Robot Framework library's own logic above the connection:
    request-body coercion, VNF lifecycle payloads, status polling and the
    lookup of a VNF by name. */
module Cbam {
  import opened Results
  import opened Text
  import opened JsonValues
  import opened Http
  import opened Connection

  const VnfInstances := "/vnflcm/v1/vnf_instances"

  // ---------------------------------------------------------------------
  // Request bodies

  /** A string body: a name ending in ".json" is opened as a file, anything
      else is sent as it is. */
  function TextBody(text: string): Payload {
    if EndsWith(text, ".json") then FileData(text) else TextData(text)
  }

  function Lines(items: seq<Json>): seq<string>
    requires forall i :: 0 <= i < |items| ==> items[i].JStr?
  {
    seq(|items|, i requires 0 <= i < |items| => items[i].s)
  }

  /** `_parse_json_body(body)`: a list of lines is joined with "\n" first
      (a non-string line makes `join` raise `TypeError`); a string is a file
      name when it ends in ".json" and raw JSON text otherwise; any other value
      is serialised with `json.dumps`. */
  function ParseJsonBody(body: Json): (r: Result<Payload>)
    ensures r.Err? <==> body.JArr? && exists i :: 0 <= i < |body.items| && !body.items[i].JStr?
    ensures r.Err? ==> r.error.kind == TypeError
    ensures body.JStr? ==> r.Ok? && (r.value.FileData? <==> EndsWith(body.s, ".json"))
    ensures body.JStr? ==> r.value == FileData(body.s) || r.value == TextData(body.s)
    ensures body.JArr? && r.Ok? ==> r.value == TextBody(Join(Lines(body.items), "\n"))
    ensures !body.JArr? && !body.JStr? ==> r == Ok(SerializedData(body))
  {
    match body
    case JArr(items) =>
      if forall i :: 0 <= i < |items| ==> items[i].JStr? then Ok(TextBody(Join(Lines(items), "\n")))
      else Err(Error(TypeError, "sequence item: expected str instance"))
    case JStr(text) => Ok(TextBody(text))
    case _ => Ok(SerializedData(body))
  }

  /** A list holding one line is the same body as that line. */
  lemma SingleLineList(line: string)
    ensures ParseJsonBody(JArr([JStr(line)])) == ParseJsonBody(JStr(line))
  {
    assert Lines([JStr(line)]) == [line];
  }

  /** Joining lines never hides a file name: the body is opened as a file
      exactly when the last line ends in ".json". */
  lemma LinesOpenFileWhenLastLineIsFileName(lines: seq<string>)
    requires |lines| >= 1
    ensures var items := seq(|lines|, i requires 0 <= i < |lines| => JStr(lines[i]));
      ParseJsonBody(JArr(items)).Ok? &&
      (ParseJsonBody(JArr(items)).value.FileData? <==> EndsWith(lines[|lines| - 1], ".json"))
  {
    var items := seq(|lines|, i requires 0 <= i < |lines| => JStr(lines[i]));
    assert Lines(items) == lines;
    var j := Join(lines, "\n");
    var last := lines[|lines| - 1];
    JoinEndsWithLast(lines, "\n");
    if |last| < 5 && |lines| > 1 {
      // the separator before the last line falls inside the last five characters
      JoinSeparatorBeforeLast(lines, "\n");
      assert j[|j| - |last| - 1] == '\n';
      assert |j| >= 5 ==> j[|j| - 5..][4 - |last|] == '\n';
      assert forall k :: 0 <= k < 5 ==> ".json"[k] != '\n';
    }
  }

  /** With two or more parts, the separator comes right before the last. */
  lemma JoinSeparatorBeforeLast(parts: seq<string>, sep: string)
    requires |parts| >= 2
    ensures var j := Join(parts, sep); var last := parts[|parts| - 1];
      |j| >= |sep| + |last| && j[|j| - |last| - |sep|..|j| - |last|] == sep
  {
    var j, last := Join(parts, sep), parts[|parts| - 1];
    var pre := parts[0] + sep;
    var rest := Join(parts[1..], sep);
    assert j == pre + rest;
    if |parts| > 2 {
      JoinSeparatorBeforeLast(parts[1..], sep);
      assert parts[1..][|parts[1..]| - 1] == last;
      SliceOfAppend(pre, rest, |rest| - |last| - |sep|, |rest| - |last|);
    } else {
      assert rest == last;
      SliceOfAppend(parts[0], sep + last, 0, |sep|);
      assert (parts[0] + (sep + last))[|parts[0]|..|parts[0]| + |sep|] == sep;
      assert j == parts[0] + (sep + last);
    }
  }

  lemma SliceOfAppend(p: string, q: string, lo: nat, hi: nat)
    requires lo <= hi <= |q|
    ensures (p + q)[|p| + lo..|p| + hi] == q[lo..hi]
  {
  }

  lemma JoinEndsWithLast(parts: seq<string>, sep: string)
    requires |parts| >= 1
    ensures var j := Join(parts, sep); var last := parts[|parts| - 1];
      |j| >= |last| && j[|j| - |last|..] == last
  {
    if |parts| > 1 {
      JoinEndsWithLast(parts[1..], sep);
    }
  }

  // ---------------------------------------------------------------------
  // Lifecycle payloads

  /** `create_vnf` payload: the descriptor id and instance name always, the
      description only when one is given. */
  function CreateVnfPayload(vnfdId: string, name: string, description: Option<string>): (p: map<string, Json>)
    ensures p.Keys == {"vnfdId", "vnfInstanceName"} + (if description.Some? then {"vnfInstanceDescription"} else {})
    ensures p["vnfdId"] == JStr(vnfdId) && p["vnfInstanceName"] == JStr(name)
    ensures description.Some? ==> p["vnfInstanceDescription"] == JStr(description.value)
  {
    var base := map["vnfdId" := JStr(vnfdId), "vnfInstanceName" := JStr(name)];
    match description
    case None => base
    case Some(d) => base["vnfInstanceDescription" := JStr(d)]
  }

  /** `create_vnf` POSTs its payload as JSON to the instance collection. */
  function CreateVnfCall(vnfdId: string, name: string, description: Option<string>): (call: Call)
    ensures call.verb == POST && call.path == VnfInstances && call.headers.None?
    ensures call.body == JsonBody(JObj(CreateVnfPayload(vnfdId, name, description)))
    ensures Subscript(call.body.json, "vnfInstanceDescription").Ok? <==> description.Some?
  {
    Call(POST, VnfInstances, None, JsonBody(JObj(CreateVnfPayload(vnfdId, name, description))))
  }

  /** `terminate_vnf` payload: the termination type (GRACEFUL when the
      argument is omitted, otherwise whatever value was passed, an explicit
      `None` being sent as JSON null), the remaining keyword arguments as
      `additionalParams`, and the graceful termination timeout only when one
      is given. */
  function TerminateVnfPayload(terminationType: Option<Json>, gracefulTimeout: Option<int>,
                               additional: map<string, Json>): (p: map<string, Json>)
    ensures p.Keys == {"terminationType", "additionalParams"} + (if gracefulTimeout.Some? then {"gracefulTerminationTimeout"} else {})
    ensures terminationType.None? ==> p["terminationType"] == JStr("GRACEFUL")
    ensures terminationType.Some? ==> p["terminationType"] == terminationType.value
    ensures p["additionalParams"] == JObj(additional)
    ensures gracefulTimeout.Some? ==> p["gracefulTerminationTimeout"] == JInt(gracefulTimeout.value)
  {
    var kind := match terminationType case None => JStr("GRACEFUL") case Some(t) => t;
    var base := map["terminationType" := kind, "additionalParams" := JObj(additional)];
    match gracefulTimeout
    case None => base
    case Some(t) => base["gracefulTerminationTimeout" := JInt(t)]
  }

  /** `terminate_vnf` POSTs its payload to the instance's terminate task. */
  function TerminateVnfCall(vnfId: string, terminationType: Option<Json>, gracefulTimeout: Option<int>,
                            additional: map<string, Json>): (call: Call)
    ensures call.verb == POST && call.path == VnfInstances + "/" + vnfId + "/terminate"
    ensures call.body == JsonBody(JObj(TerminateVnfPayload(terminationType, gracefulTimeout, additional)))
  {
    Call(POST, VnfInstances + "/" + vnfId + "/terminate", None,
         JsonBody(JObj(TerminateVnfPayload(terminationType, gracefulTimeout, additional))))
  }

  // ---------------------------------------------------------------------
  // Status polling

  const StateKey := "instantiationState"

  /** A polled document whose state can be read and is not yet the target. */
  predicate Pending(doc: Json, status: string) {
    Subscript(doc, StateKey).Ok? && Subscript(doc, StateKey).value != JStr(status)
  }

  predicate Reaches(doc: Json, status: string) {
    Subscript(doc, StateKey) == Ok(JStr(status))
  }

  /** How many polls a loop `while index * interval < timeout` makes when
      the target state never comes: the ceiling of timeout / interval. */
  function PollLimit(timeout: int, interval: int): nat
    requires interval > 0
  {
    if timeout <= 0 then 0 else (timeout + interval - 1) / interval
  }

  /** Multiplying by a positive interval keeps the order of poll indices. */
  lemma ScaleMonotone(k: int, n: int, interval: int)
    requires k <= n && interval > 0
    ensures k * interval <= n * interval
  {
    assert n * interval - k * interval == (n - k) * interval;
  }

  /** The ceiling brackets the timeout: q polls reach it, q - 1 do not. */
  lemma CeilingBrackets(timeout: int, interval: int)
    requires timeout > 0 && interval > 0
    ensures var q := (timeout + interval - 1) / interval;
      q * interval >= timeout && (q - 1) * interval < timeout
  {
    var a := timeout + interval - 1;
    var q := a / interval;
    var rem := a % interval;
    assert a == q * interval + rem && 0 <= rem < interval;
    assert (q - 1) * interval == q * interval - interval;
  }

  /** `PollLimit` is the first index at which the loop condition fails. */
  lemma PollLimitIsFirstExit(timeout: int, interval: int, n: nat)
    requires interval > 0
    ensures n == PollLimit(timeout, interval) <==>
            n * interval >= timeout && forall k: nat :: k < n ==> k * interval < timeout
  {
    var q := PollLimit(timeout, interval);
    if timeout > 0 {
      CeilingBrackets(timeout, interval);
    }
    assert q * interval >= timeout;
    assert q > 0 ==> (q - 1) * interval < timeout;
    forall k: nat | k < q
      ensures k * interval < timeout
    {
      ScaleMonotone(k, q - 1, interval);
    }
    if n * interval >= timeout && forall k: nat :: k < n ==> k * interval < timeout {
      if n < q {
        ScaleMonotone(n, q - 1, interval);
      }
    }
  }

  datatype PollResult =
    | Reached(polls: nat)
    | TimedOut(polls: nat, error: Error)
    | Failed(polls: nat, error: Error)

  function TimeoutError(status: string, timeout: int): Error {
    Error(GenericException,
          "VNF instantiation status did not change to " + status + " in " + Decimal(timeout) + " seconds")
  }

  /** `time.sleep` refuses a negative length. */
  const SleepError := Error(ValueError, "sleep length must be non-negative")

  /** `_poll_vnf_instantiation_status`: the k-th poll reads `docs[k]`;
      polling stops at the first document in the target state, and otherwise
      sleeps and continues while `index * interval < timeout`. A document
      without a readable state raises, a negative interval makes the first
      sleep raise, and running out of documents is a connection failure. How
      long the sleeps last is not modelled. */
  method PollInstantiationStatus(docs: seq<Json>, status: string, timeout: int, interval: int)
    returns (r: PollResult)
    ensures r.polls <= |docs|
    ensures forall k: nat :: k < r.polls ==> k * interval < timeout
    ensures r.Reached? ==> r.polls >= 1 && Reaches(docs[r.polls - 1], status)
    ensures r.Reached? || (r.Failed? && r.polls > 0 && r.error.kind != ConnectionFailure) ==>
              forall k :: 0 <= k < r.polls - 1 ==> Pending(docs[k], status)
    ensures r.TimedOut? || (r.Failed? && r.error.kind == ConnectionFailure) ==>
              forall k :: 0 <= k < r.polls ==> Pending(docs[k], status)
    ensures r.TimedOut? ==> r.polls * interval >= timeout && r.error == TimeoutError(status, timeout)
    ensures r.Failed? && r.error.kind == ConnectionFailure ==> r.polls == |docs|
    ensures r.Failed? ==> r.error.kind in {ConnectionFailure, KeyError, TypeError, ValueError}
    ensures r.Failed? && r.error.kind in {KeyError, TypeError} ==>
              r.polls >= 1 && Subscript(docs[r.polls - 1], StateKey) == Err(r.error)
    ensures r.Failed? && r.error.kind == ValueError <==> interval < 0 && r.polls == 1 && Pending(docs[0], status)
    ensures r.Failed? && r.error.kind == ValueError ==> r.error == SleepError
    ensures interval < 0 ==> r.polls <= 1
    ensures interval > 0 && r.TimedOut? ==> r.polls == PollLimit(timeout, interval)
    ensures interval > 0 && |docs| >= PollLimit(timeout, interval) &&
            (forall k :: 0 <= k < PollLimit(timeout, interval) ==> Pending(docs[k], status)) ==>
              r == TimedOut(PollLimit(timeout, interval), TimeoutError(status, timeout))
  {
    var index: nat := 0;
    while index * interval < timeout
      invariant index <= |docs|
      invariant forall k: nat :: k < index ==> k * interval < timeout
      invariant forall k :: 0 <= k < index ==> Pending(docs[k], status)
      invariant interval < 0 ==> index == 0
      decreases |docs| - index
    {
      if index == |docs| {
        r := Failed(index, Error(ConnectionFailure, "no response to status poll"));
        PollOutcomeBeforeLimit(docs, status, timeout, interval, r);
        return;
      }
      var state := Subscript(docs[index], StateKey);
      if state.Err? {
        r := Failed(index + 1, state.error);
        PollOutcomeBeforeLimit(docs, status, timeout, interval, r);
        return;
      }
      if state.value == JStr(status) {
        r := Reached(index + 1);
        PollOutcomeBeforeLimit(docs, status, timeout, interval, r);
        return;
      }
      if interval < 0 {
        r := Failed(index + 1, SleepError);
        return;
      }
      index := index + 1;
    }
    r := TimedOut(index, TimeoutError(status, timeout));
    if interval > 0 {
      PollLimitIsFirstExit(timeout, interval, index);
    }
  }

  /** A poll that ended before the loop condition failed ended inside the
      first `PollLimit` polls, so with enough pending documents it cannot
      have happened. */
  lemma PollOutcomeBeforeLimit(docs: seq<Json>, status: string, timeout: int, interval: int, r: PollResult)
    requires !r.TimedOut? && r.polls <= |docs|
    requires r.Reached? ==> r.polls >= 1 && Reaches(docs[r.polls - 1], status)
    requires r.Failed? ==> r.error.kind in {ConnectionFailure, KeyError, TypeError}
    requires r.Failed? && r.error.kind != ConnectionFailure ==>
               r.polls >= 1 && Subscript(docs[r.polls - 1], StateKey) == Err(r.error)
    requires r.Failed? && r.error.kind == ConnectionFailure ==> r.polls == |docs| && r.polls * interval < timeout
    requires r.polls >= 1 ==> (r.polls - 1) * interval < timeout
    ensures interval > 0 && |docs| >= PollLimit(timeout, interval) ==>
              exists k :: 0 <= k < PollLimit(timeout, interval) && !Pending(docs[k], status)
  {
    if interval > 0 && |docs| >= PollLimit(timeout, interval) {
      var q := PollLimit(timeout, interval);
      PollLimitIsFirstExit(timeout, interval, q);
      if r.Failed? && r.error.kind == ConnectionFailure {
        // |docs| * interval < timeout <= q * interval, so |docs| < q
        assert false;
      } else {
        var k := r.polls - 1;
        assert !Pending(docs[k], status);
        if k >= q {
          ScaleMonotone(q, k, interval);
        }
        assert k < q;
      }
    }
  }

  // ---------------------------------------------------------------------
  // Lookup by name

  const NameKey := "vnfInstanceName"

  function NotFound(name: string): Error {
    Error(ValueError, "No VNF with name '" + name + "' was found.")
  }

  /** The VNF has a readable name, and it is not `name`: the scan moves on. */
  predicate NamedOtherwise(vnf: Json, name: string) {
    Subscript(vnf, NameKey).Ok? && Subscript(vnf, NameKey).value != JStr(name)
  }

  /** The scan of `get_vnf_by_name` over the listed VNFs. */
  function FirstNamed(vnfs: seq<Json>, name: string): (r: Result<Json>)
    ensures r.Ok? ==> exists i :: (0 <= i < |vnfs| && vnfs[i] == r.value &&
                                    Subscript(vnfs[i], NameKey) == Ok(JStr(name)) &&
                                    forall j :: 0 <= j < i ==> NamedOtherwise(vnfs[j], name))
    ensures r == Err(NotFound(name)) <==> forall i :: 0 <= i < |vnfs| ==> NamedOtherwise(vnfs[i], name)
    ensures r.Err? && r != Err(NotFound(name)) ==>
              exists i :: (0 <= i < |vnfs| && Subscript(vnfs[i], NameKey) == Err(r.error) &&
                           forall j :: 0 <= j < i ==> NamedOtherwise(vnfs[j], name))
  {
    if |vnfs| == 0 then Err(NotFound(name))
    else
      match Subscript(vnfs[0], NameKey)
      case Err(e) => Err(e)
      case Ok(n) =>
        if n == JStr(name) then Ok(vnfs[0])
        else
          var r := FirstNamed(vnfs[1..], name);
          assert forall j :: 1 <= j < |vnfs| ==> vnfs[j] == vnfs[1..][j - 1];
          r
  }

  /** `get_vnf_by_name(name)` over the body of the instance listing. */
  function GetVnfByName(listing: Json, name: string): (r: Result<Json>)
    ensures listing.JArr? ==> r == FirstNamed(listing.items, name)
    ensures listing.JObj? && listing.fields == map[] ==> r == Err(NotFound(name))
    ensures !listing.JArr? && !listing.JObj? && !listing.JStr? ==> r.Err? && r.error.kind == TypeError
  {
    var vnfs :- KeyedItems(listing);
    FirstNamed(vnfs, name)
  }
}

=== FILE: connection.dfy ===
/** The authenticated CBAM connection: OAuth 2.0 client-credentials token
    acquisition (section 4.4 of RFC 6749), the refresh-token grant (section 6
    of RFC 6749), bearer-header injection (section 2.1 of RFC 6750) and the
    one-shot refresh-and-retry on a 401.

    HTTP is a scripted `Server`: every dispatch consumes the next resource
    reply and every token request the next token-endpoint reply; a call that
    finds its queue empty fails as a connection failure. Everything the client
    sends is recorded, in order, in the outcome's trace. */
module Connection {
  import opened Results
  import opened JsonValues
  import opened Http

  /** Constructor arguments: `host`, `client_id`, `client_secret` and the
      extra keyword arguments passed to every `requests` call. */
  datatype Config = Config(
    host: string,
    clientId: string,
    clientSecret: string,
    options: map<string, string>)

  /** The mutable part of a connection. */
  datatype Client = Client(accessToken: string, refreshToken: string, refreshTokenUsed: bool)

  /** The request body keyword a call carries. */
  datatype Payload =
    | NoBody
    | JsonBody(json: Json)                      // json=<value>
    | TextData(text: string)                    // data=<str>
    | SerializedData(value: Json)               // data=json.dumps(<value>)
    | FileData(path: string)                    // data=open(<path>, "rb")
    | MultipartFile(field: string, path: string) // files={<field>: open(<path>, "rb")}

  /** One call of `request(method, path, **kwargs)`; `headers` is `None` when
      the caller passes no `headers` keyword. */
  datatype Call = Call(verb: Method, path: string, headers: Option<Headers>, body: Payload)

  /** A token-endpoint reply: its status, its text, and the two token fields
      of its JSON body (`None` when the key is absent). */
  datatype TokenReply = TokenReply(
    status: int,
    text: string,
    accessToken: Option<string>,
    refreshToken: Option<string>)

  /** The scripted remote side. */
  datatype Server = Server(replies: seq<HttpReply>, tokenReplies: seq<TokenReply>)

  /** What the client puts on the wire. */
  datatype Sent =
    | TokenPost(url: string, form: map<string, string>, options: map<string, string>)
    | Dispatch(verb: Method, url: string, headers: Headers, body: Payload, options: map<string, string>)

  /** The connection state and the remaining script after an operation, what
      it sent, and its value or the exception it raised. */
  datatype Outcome<+T> = Outcome(client: Client, server: Server, trace: seq<Sent>, result: Result<T>)

  const AuthorizationKey := "Authorization"

  function TokenUrl(host: string): string {
    "https://" + host + "/auth/realms/cbam/protocol/openid-connect/token"
  }

  function Url(cfg: Config, path: string): (url: string)
    ensures |url| == 8 + |cfg.host| + |path|
    ensures url[..8] == "https://" && url[8..8 + |cfg.host|] == cfg.host
    ensures url[8 + |cfg.host|..] == path
  {
    "https://" + cfg.host + path
  }

  function Bearer(token: string): string {
    "Bearer " + token
  }

  /** The form fields every token request starts from. */
  function DefaultForm(cfg: Config, grantType: string): map<string, string> {
    map["grant_type" := grantType, "client_id" := cfg.clientId, "client_secret" := cfg.clientSecret]
  }

  /** `form` is `defaults` with every field of `overrides` replacing or added. */
  ghost predicate Overridden(form: map<string, string>, defaults: map<string, string>, overrides: map<string, string>) {
    && form.Keys == defaults.Keys + overrides.Keys
    && (forall k :: k in overrides ==> form[k] == overrides[k])
    && (forall k :: k in defaults && k !in overrides ==> form[k] == defaults[k])
  }

  /** A 200 reply whose body holds both tokens. */
  predicate Granted(reply: TokenReply) {
    reply.status == 200 && reply.accessToken.Some? && reply.refreshToken.Some?
  }

  /** `request_token(grant_type, options)`: POST the defaults overridden by
      `options` to the token endpoint; a non-200 reply raises with the reply
      text; a 200 reply replaces the access token, then the refresh token
      (a body lacking `refresh_token` raises after the access token was
      already replaced). The retry flag is never touched. */
  function RequestToken(cfg: Config, c: Client, s: Server, grantType: string, options: map<string, string>)
    : (o: Outcome<()>)
    ensures |o.trace| == 1 && o.trace[0].TokenPost?
    ensures o.trace[0].url == TokenUrl(cfg.host) && o.trace[0].options == cfg.options
    ensures Overridden(o.trace[0].form, DefaultForm(cfg, grantType), options)
    ensures o.client.refreshTokenUsed == c.refreshTokenUsed
    ensures |s.tokenReplies| == 0 ==> o.result.Err? && o.result.error.kind == ConnectionFailure && o.client == c
    ensures |s.tokenReplies| > 0 ==> o.server == s.(tokenReplies := s.tokenReplies[1..])
    ensures o.result.Ok? <==> |s.tokenReplies| > 0 && Granted(s.tokenReplies[0])
    ensures o.result.Ok? ==>
              o.client.accessToken == s.tokenReplies[0].accessToken.value &&
              o.client.refreshToken == s.tokenReplies[0].refreshToken.value
    ensures |s.tokenReplies| > 0 && s.tokenReplies[0].status != 200 ==>
              o.client == c &&
              o.result == Err(Error(GenericException, "Token request failed: " + s.tokenReplies[0].text))
    ensures o.result.Err? ==> o.client.refreshToken == c.refreshToken
  {
    var form := DefaultForm(cfg, grantType) + options;
    var sent := [TokenPost(TokenUrl(cfg.host), form, cfg.options)];
    if |s.tokenReplies| == 0 then
      Outcome(c, s, sent, Err(Error(ConnectionFailure, "no response from the token endpoint")))
    else
      var reply := s.tokenReplies[0];
      var rest := s.(tokenReplies := s.tokenReplies[1..]);
      if reply.status != 200 then
        Outcome(c, rest, sent, Err(Error(GenericException, "Token request failed: " + reply.text)))
      else
        match reply.accessToken
        case None => Outcome(c, rest, sent, Err(MissingKey("access_token")))
        case Some(access) =>
          var c' := c.(accessToken := access);
          match reply.refreshToken
          case None => Outcome(c', rest, sent, Err(MissingKey("refresh_token")))
          case Some(refresh) => Outcome(c'.(refreshToken := refresh), rest, sent, Ok(()))
  }

  /** The constructor: acquire a client-credentials token pair, then clear
      the retry flag. On an error no connection exists; `client` is then
      meaningless. */
  function Connect(cfg: Config, s: Server): (o: Outcome<()>)
    ensures |o.trace| == 1 && o.trace[0].TokenPost?
    ensures "grant_type" in o.trace[0].form && o.trace[0].form["grant_type"] == "client_credentials"
    ensures "client_id" in o.trace[0].form && o.trace[0].form["client_id"] == cfg.clientId
    ensures "client_secret" in o.trace[0].form && o.trace[0].form["client_secret"] == cfg.clientSecret
    ensures o.result.Ok? <==> |s.tokenReplies| > 0 && Granted(s.tokenReplies[0])
    ensures o.result.Ok? ==>
              o.client == Client(s.tokenReplies[0].accessToken.value, s.tokenReplies[0].refreshToken.value, false)
    // a failed construction re-raises what the token request raised
    ensures o.result.Err? ==>
              o.result == RequestToken(cfg, Client("", "", false), s, "client_credentials", map[]).result
  {
    var o := RequestToken(cfg, Client("", "", false), s, "client_credentials", map[]);
    o.(client := o.client.(refreshTokenUsed := false))
  }

  /** `refresh_access_token()`: a refresh-token grant with the current
      refresh token; the flag is raised only once that request succeeded. */
  function RefreshAccessToken(cfg: Config, c: Client, s: Server): (o: Outcome<()>)
    ensures |o.trace| == 1 && o.trace[0].TokenPost?
    ensures "grant_type" in o.trace[0].form && o.trace[0].form["grant_type"] == "refresh_token"
    ensures "refresh_token" in o.trace[0].form && o.trace[0].form["refresh_token"] == c.refreshToken
    ensures "client_id" in o.trace[0].form && o.trace[0].form["client_id"] == cfg.clientId
    ensures o.result.Ok? <==> |s.tokenReplies| > 0 && Granted(s.tokenReplies[0])
    ensures o.result.Ok? ==> o.client.refreshTokenUsed
    ensures o.result.Err? ==> o.client.refreshTokenUsed == c.refreshTokenUsed
    ensures o.result.Ok? ==>
              o.client.accessToken == s.tokenReplies[0].accessToken.value &&
              o.client.refreshToken == s.tokenReplies[0].refreshToken.value
  {
    var o := RequestToken(cfg, c, s, "refresh_token", map["refresh_token" := c.refreshToken]);
    if o.result.Ok? then o.(client := o.client.(refreshTokenUsed := true)) else o
  }

  /** `{**auth_header, **headers}`: the injected bearer header, overridden by
      whatever the caller passed, Authorization included. */
  function MergeHeaders(accessToken: string, caller: Option<Headers>): (h: Headers)
    ensures AuthorizationKey in h
    ensures caller.None? ==> h == map[AuthorizationKey := Bearer(accessToken)]
    ensures caller.Some? ==> h.Keys == caller.value.Keys + {AuthorizationKey}
    ensures caller.Some? ==> forall k :: k in caller.value ==> h[k] == caller.value[k]
    ensures caller.None? || AuthorizationKey !in caller.value ==> h[AuthorizationKey] == Bearer(accessToken)
  {
    var auth := map[AuthorizationKey := Bearer(accessToken)];
    match caller
    case None => auth
    case Some(given) => auth + given
  }

  /** What the first dispatch of `call` puts on the wire. */
  function FirstDispatch(cfg: Config, c: Client, call: Call): Sent {
    Dispatch(call.verb, Url(cfg, call.path), MergeHeaders(c.accessToken, call.headers), call.body, cfg.options)
  }

  /** A dispatch, then possibly a token request, then possibly a second
      dispatch: the shape of every `request` trace. */
  lemma CountsOfShape(t: seq<Sent>)
    requires 1 <= |t| <= 3 && t[0].Dispatch?
    requires |t| > 1 ==> t[1].TokenPost?
    requires |t| == 3 ==> t[2].Dispatch?
    ensures Dispatches(t) == (if |t| == 3 then 2 else 1)
    ensures TokenPosts(t) == (if |t| > 1 then 1 else 0)
  {
    if |t| > 1 {
      var tail := t[1..];
      assert tail[0] == t[1];
      if |t| == 3 {
        assert tail[1..][0] == t[2] && tail[1..][1..] == [];
        assert Dispatches(tail[1..]) == 1 && TokenPosts(tail[1..]) == 0;
      } else {
        assert tail[1..] == [];
      }
      assert Dispatches(tail) == |t| - 2 && TokenPosts(tail) == 1;
    } else {
      assert t[1..] == [];
    }
  }

  /** The call the retry re-issues: the merged headers without Authorization. */
  function RetryCall(c: Client, call: Call): Call {
    call.(headers := Some(MergeHeaders(c.accessToken, call.headers) - {AuthorizationKey}))
  }

  /** How many resource requests a trace dispatched. */
  function Dispatches(trace: seq<Sent>): nat {
    if |trace| == 0 then 0 else (if trace[0].Dispatch? then 1 else 0) + Dispatches(trace[1..])
  }

  /** How many token requests a trace made. */
  function TokenPosts(trace: seq<Sent>): nat {
    if |trace| == 0 then 0 else (if trace[0].TokenPost? then 1 else 0) + TokenPosts(trace[1..])
  }

  lemma CountsAppend(a: seq<Sent>, b: seq<Sent>)
    ensures Dispatches(a + b) == Dispatches(a) + Dispatches(b)
    ensures TokenPosts(a + b) == TokenPosts(a) + TokenPosts(b)
  {
    if |a| > 0 {
      assert (a + b)[1..] == a[1..] + b;
      CountsAppend(a[1..], b);
    } else {
      assert a + b == b;
    }
  }

  /** The first reply is a 401 and the flag allows a refresh. */
  predicate RefreshDue(c: Client, s: Server) {
    |s.replies| > 0 && s.replies[0].status == 401 && !c.refreshTokenUsed
  }

  function StatusError(cfg: Config, call: Call, status: int): Error {
    Error(HttpError(status),
          Text.Decimal(status) + (if status < 500 then " Client Error" else " Server Error")
          + " for url: " + Url(cfg, call.path))
  }

  /** `request(method, path, **kwargs)`: dispatch with the bearer header; on a
      401 while the flag is clear, refresh and re-issue once; otherwise
      `raise_for_status`, and clear the flag only when that passes.

      The trace is the first dispatch, then (on a due refresh) the token
      request, then (if that succeeded) the retry's single dispatch. */
  function Request(cfg: Config, c: Client, s: Server, call: Call): (o: Outcome<HttpReply>)
    decreases if c.refreshTokenUsed then 0 else 1
    ensures 1 <= |o.trace| <= 3
    ensures o.trace[0] == FirstDispatch(cfg, c, call)
    ensures c.refreshTokenUsed ==> |o.trace| == 1
    ensures |o.trace| > 1 <==> RefreshDue(c, s)
    ensures |o.trace| > 1 ==> o.trace[1] == RefreshAccessToken(cfg, c, s.(replies := s.replies[1..])).trace[0]
    ensures |o.trace| == 3 <==>
              RefreshDue(c, s) && RefreshAccessToken(cfg, c, s.(replies := s.replies[1..])).result.Ok?
    ensures |o.trace| == 3 ==> o.trace[2].Dispatch? && o.trace[2].verb == call.verb
    ensures o.trace[0].url == Url(cfg, call.path) && o.trace[0].body == call.body && o.trace[0].options == cfg.options
    ensures |o.trace| == 3 ==>
              o.trace[2].url == Url(cfg, call.path) && o.trace[2].body == call.body && o.trace[2].options == cfg.options
    // success: never a client or server error, and the flag is cleared
    ensures o.result.Ok? ==> !RaisesForStatus(o.result.value.status) && !o.client.refreshTokenUsed
    ensures |o.trace| > 1 ==> o.trace[1].TokenPost?
    ensures o.result.Ok? ==> |s.replies| >= 1 && (|o.trace| == 3 ==> |s.replies| >= 2)
    ensures o.result.Ok? && |o.trace| == 1 ==> o.result.value == s.replies[0]
    // failure: the flag is left as it was, or raised if a refresh succeeded
    ensures o.result.Err? ==> (o.client.refreshTokenUsed <==> c.refreshTokenUsed || |o.trace| == 3)
    ensures |o.trace| == 1 && |s.replies| > 0 ==>
              (o.result.Err? <==> RaisesForStatus(s.replies[0].status))
    ensures |o.trace| == 1 && |s.replies| > 0 && o.result.Err? ==>
              o.result.error == StatusError(cfg, call, s.replies[0].status)
    ensures |o.trace| == 1 ==> o.client.accessToken == c.accessToken && o.client.refreshToken == c.refreshToken
    // a granted refresh replaces the whole token pair for every later call
    ensures |o.trace| == 3 ==>
              o.client.accessToken == s.tokenReplies[0].accessToken.value &&
              o.client.refreshToken == s.tokenReplies[0].refreshToken.value
    // a refresh that failed in any way is what the call raises
    ensures |o.trace| == 2 ==>
              o.result == Err(RefreshAccessToken(cfg, c, s.(replies := s.replies[1..])).result.error)
    // what is left of the script: one reply per dispatch, one token reply per token request
    ensures |o.trace| == 1 && |s.replies| > 0 ==> o.server == s.(replies := s.replies[1..])
    ensures o.result.Ok? && |o.trace| == 3 ==>
              o.server == s.(replies := s.replies[2..], tokenReplies := s.tokenReplies[1..])
  {
    var first := FirstDispatch(cfg, c, call);
    if |s.replies| == 0 then
      Outcome(c, s, [first], Err(Error(ConnectionFailure, "no response from " + first.url)))
    else
      var reply := s.replies[0];
      var rest := s.(replies := s.replies[1..]);
      if reply.status == 401 && !c.refreshTokenUsed then
        var refreshed := RefreshAccessToken(cfg, c, rest);
        if refreshed.result.Err? then
          Outcome(refreshed.client, refreshed.server, [first] + refreshed.trace, Err(refreshed.result.error))
        else
          var retry := Request(cfg, refreshed.client, refreshed.server, RetryCall(c, call));
          retry.(trace := [first] + refreshed.trace + retry.trace)
      else if RaisesForStatus(reply.status) then
        Outcome(c, rest, [first], Err(StatusError(cfg, call, reply.status)))
      else
        Outcome(c.(refreshTokenUsed := false), rest, [first], Ok(reply))
  }

  /** One `request` dispatches at most twice and asks for a token at most
      once, and a success consumed one scripted reply per dispatch. */
  lemma RequestCounts(cfg: Config, c: Client, s: Server, call: Call)
    ensures var o := Request(cfg, c, s, call);
      && Dispatches(o.trace) <= 2 && TokenPosts(o.trace) <= 1
      && Dispatches(o.trace) + TokenPosts(o.trace) == |o.trace|
      && (o.result.Ok? ==> |s.replies| >= Dispatches(o.trace) && |s.tokenReplies| >= TokenPosts(o.trace))
      && (o.result.Ok? ==>
            o.server == s.(replies := s.replies[Dispatches(o.trace)..],
                           tokenReplies := s.tokenReplies[TokenPosts(o.trace)..]))
  {
    CountsOfShape(Request(cfg, c, s, call).trace);
  }

  /** A 401 answered by a granted refresh is re-issued exactly once, with the
      new access token in Authorization and every other header of the first
      dispatch, the caller's included, carried over unchanged; if the retry
      passes, its reply is the result and the flag is clear again. */
  lemma RetryCarriesNewToken(cfg: Config, c: Client, s: Server, call: Call)
    requires RefreshDue(c, s)
    requires |s.tokenReplies| > 0 && Granted(s.tokenReplies[0])
    ensures var o := Request(cfg, c, s, call);
      && |o.trace| == 3
      && Dispatches(o.trace) == 2 && TokenPosts(o.trace) == 1
      && o.trace[2].headers[AuthorizationKey] == Bearer(s.tokenReplies[0].accessToken.value)
      && o.trace[2].headers.Keys == o.trace[0].headers.Keys
      && (forall k :: k in o.trace[0].headers && k != AuthorizationKey ==> o.trace[2].headers[k] == o.trace[0].headers[k])
      && (call.headers.Some? ==> forall k :: k in call.headers.value && k != AuthorizationKey ==>
            o.trace[2].headers[k] == call.headers.value[k])
      && (|s.replies| > 1 && !RaisesForStatus(s.replies[1].status) ==>
            o.result == Ok(s.replies[1]) && !o.client.refreshTokenUsed)
  {
    var rest := s.(replies := s.replies[1..]);
    var refreshed := RefreshAccessToken(cfg, c, rest);
    var retry := Request(cfg, refreshed.client, refreshed.server, RetryCall(c, call));
    assert refreshed.server.replies == s.replies[1..];
    var merged := MergeHeaders(c.accessToken, call.headers);
    assert retry.trace[0].headers == MergeHeaders(refreshed.client.accessToken, Some(merged - {AuthorizationKey}));
    assert Request(cfg, c, s, call).trace == [FirstDispatch(cfg, c, call)] + refreshed.trace + retry.trace;
    CountsOfShape(Request(cfg, c, s, call).trace);
  }

  /** A 401 on the retry is raised as an HTTP error, not refreshed again, and
      leaves the flag raised. */
  lemma DoubleUnauthorized(cfg: Config, c: Client, s: Server, call: Call)
    requires RefreshDue(c, s)
    requires |s.replies| > 1 && s.replies[1].status == 401
    requires |s.tokenReplies| > 0 && Granted(s.tokenReplies[0])
    ensures var o := Request(cfg, c, s, call);
      && o.result == Err(StatusError(cfg, call, 401))
      && Dispatches(o.trace) == 2 && TokenPosts(o.trace) == 1
      && o.client.refreshTokenUsed
  {
    var rest := s.(replies := s.replies[1..]);
    var refreshed := RefreshAccessToken(cfg, c, rest);
    assert refreshed.server.replies == s.replies[1..];
    RetryCarriesNewToken(cfg, c, s, call);
  }

  /** A refused refresh is raised with the token endpoint's text: no retry
      follows, and the flag stays clear. */
  lemma RefusedRefreshRaises(cfg: Config, c: Client, s: Server, call: Call)
    requires RefreshDue(c, s)
    requires |s.tokenReplies| > 0 && s.tokenReplies[0].status != 200
    ensures var o := Request(cfg, c, s, call);
      && |o.trace| == 2
      && !o.client.refreshTokenUsed
      && o.result == Err(Error(GenericException, "Token request failed: " + s.tokenReplies[0].text))
  {
    var rest := s.(replies := s.replies[1..]);
    var refreshed := RefreshAccessToken(cfg, c, rest);
    var token := RequestToken(cfg, c, rest, "refresh_token", map["refresh_token" := c.refreshToken]);
    assert refreshed == token;
    assert token.result == Err(Error(GenericException, "Token request failed: " + s.tokenReplies[0].text));
  }

  /** After a granted refresh, the retry's reply is checked like any other:
      the call fails iff `raise_for_status` raises on it, with that error. */
  lemma RetryRaisesForStatus(cfg: Config, c: Client, s: Server, call: Call)
    requires RefreshDue(c, s)
    requires |s.tokenReplies| > 0 && Granted(s.tokenReplies[0])
    requires |s.replies| > 1
    ensures var o := Request(cfg, c, s, call);
      && (o.result.Err? <==> RaisesForStatus(s.replies[1].status))
      && (o.result.Err? ==> o.result.error == StatusError(cfg, call, s.replies[1].status))
      && (o.result.Ok? ==> o.result.value == s.replies[1])
  {
    var rest := s.(replies := s.replies[1..]);
    var refreshed := RefreshAccessToken(cfg, c, rest);
    assert refreshed.server.replies == s.replies[1..];
    var retry := Request(cfg, refreshed.client, refreshed.server, RetryCall(c, call));
    assert Request(cfg, c, s, call).result == retry.result;
  }

  /** The flag is cleared only on success: after a call failed following a
      granted refresh, the next call's 401 gets no refresh at all, is raised
      after a single dispatch, and leaves the flag raised for the call after
      it, so a client whose token then expires stays unable to refresh. */
  lemma StickyFlag(cfg: Config, c: Client, s: Server, call: Call, next: Call)
    requires RefreshDue(c, s)
    requires |s.tokenReplies| > 0 && Granted(s.tokenReplies[0])
    requires Request(cfg, c, s, call).result.Err?
    ensures var o := Request(cfg, c, s, call);
      var o' := Request(cfg, o.client, o.server, next);
      && o.client.refreshTokenUsed
      && |o'.trace| == 1 && TokenPosts(o'.trace) == 0
      && (|o.server.replies| > 0 && o.server.replies[0].status == 401 ==>
            o'.result == Err(StatusError(cfg, next, 401)) && o'.client.refreshTokenUsed)
  {
    RetryCarriesNewToken(cfg, c, s, call);
  }

  // The verb helpers: each is `request` with its own lower-case verb name.
  // `put` exists only on the connection inside the library module.

  function Get(cfg: Config, c: Client, s: Server, path: string, headers: Option<Headers>, body: Payload)
    : (o: Outcome<HttpReply>)
    ensures |o.trace| >= 1 && o.trace[0].Dispatch? && o.trace[0].verb.Name() == "get"
    ensures o.trace[0] == FirstDispatch(cfg, c, Call(GET, path, headers, body))
    ensures Dispatches(o.trace) <= 2
  {
    RequestCounts(cfg, c, s, Call(GET, path, headers, body));
    Request(cfg, c, s, Call(GET, path, headers, body))
  }

  function Post(cfg: Config, c: Client, s: Server, path: string, headers: Option<Headers>, body: Payload)
    : (o: Outcome<HttpReply>)
    ensures |o.trace| >= 1 && o.trace[0].Dispatch? && o.trace[0].verb.Name() == "post"
    ensures o.trace[0] == FirstDispatch(cfg, c, Call(POST, path, headers, body))
    ensures Dispatches(o.trace) <= 2
  {
    RequestCounts(cfg, c, s, Call(POST, path, headers, body));
    Request(cfg, c, s, Call(POST, path, headers, body))
  }

  function Put(cfg: Config, c: Client, s: Server, path: string, headers: Option<Headers>, body: Payload)
    : (o: Outcome<HttpReply>)
    ensures |o.trace| >= 1 && o.trace[0].Dispatch? && o.trace[0].verb.Name() == "put"
    ensures o.trace[0] == FirstDispatch(cfg, c, Call(PUT, path, headers, body))
    ensures Dispatches(o.trace) <= 2
  {
    RequestCounts(cfg, c, s, Call(PUT, path, headers, body));
    Request(cfg, c, s, Call(PUT, path, headers, body))
  }

  function Delete(cfg: Config, c: Client, s: Server, path: string, headers: Option<Headers>, body: Payload)
    : (o: Outcome<HttpReply>)
    ensures |o.trace| >= 1 && o.trace[0].Dispatch? && o.trace[0].verb.Name() == "delete"
    ensures o.trace[0] == FirstDispatch(cfg, c, Call(DELETE, path, headers, body))
    ensures Dispatches(o.trace) <= 2
  {
    RequestCounts(cfg, c, s, Call(DELETE, path, headers, body));
    Request(cfg, c, s, Call(DELETE, path, headers, body))
  }

  function Patch(cfg: Config, c: Client, s: Server, path: string, headers: Option<Headers>, body: Payload)
    : (o: Outcome<HttpReply>)
    ensures |o.trace| >= 1 && o.trace[0].Dispatch? && o.trace[0].verb.Name() == "patch"
    ensures o.trace[0] == FirstDispatch(cfg, c, Call(PATCH, path, headers, body))
    ensures Dispatches(o.trace) <= 2
  {
    RequestCounts(cfg, c, s, Call(PATCH, path, headers, body));
    Request(cfg, c, s, Call(PATCH, path, headers, body))
  }
}

=== FILE: http.dfy ===
/** The shapes of HTTP traffic shared by the CBAM and OpenBaton clients. */
module Http {
  import opened JsonValues

  type Headers = map<string, string>

  /** The `requests` verb a call is dispatched to by name. */
  datatype Method = GET | POST | PUT | DELETE | PATCH {
    function Name(): string {
      match this
      case GET => "get"
      case POST => "post"
      case PUT => "put"
      case DELETE => "delete"
      case PATCH => "patch"
    }
  }

  /** A response: its status code and its parsed JSON body. */
  datatype HttpReply = HttpReply(status: int, body: Json)

  /** `Response.raise_for_status()` raises for client and server errors. */
  predicate RaisesForStatus(status: int) {
    400 <= status < 600
  }
}

=== FILE: json.dfy ===
/** Parsed JSON documents (floats excluded) and the two Python operations the
    modelled code applies to them: subscripting by a string key, and iterating
    over a value whose items are then subscripted by a string key. */
module JsonValues {
  import opened Results
  import opened Text

  datatype Json =
    | JNull
    | JBool(b: bool)
    | JInt(i: int)
    | JStr(s: string)
    | JArr(items: seq<Json>)
    | JObj(fields: map<string, Json>)

  /** The text of a `KeyError` for a string key. */
  function MissingKey(key: string): Error {
    Error(KeyError, Quote(key))
  }

  /** `j[key]`: a dict yields the value or raises `KeyError`; no other JSON
      value can be subscripted by a string, so they raise `TypeError`. */
  function Subscript(j: Json, key: string): (r: Result<Json>)
    ensures r.Ok? <==> j.JObj? && key in j.fields
    ensures r.Ok? ==> r.value == j.fields[key]
    ensures j.JObj? && key !in j.fields ==> r == Err(MissingKey(key))
    ensures !j.JObj? ==> r.Err? && r.error.kind == TypeError
  {
    match j
    case JObj(fields) =>
      if key in fields then Ok(fields[key]) else Err(MissingKey(key))
    case JArr(_) => Err(Error(TypeError, "list indices must be integers or slices, not str"))
    case JStr(_) => Err(Error(TypeError, "string indices must be integers"))
    case _ => Err(Error(TypeError, "object is not subscriptable"))
  }

  /** `for item in j: item[<some str key>]` up to the first subscript: a list
      yields its elements; an empty dict or string yields nothing; a non-empty
      dict or string yields strings, and subscripting the first one raises
      `TypeError`; scalars are not iterable. */
  function KeyedItems(j: Json): (r: Result<seq<Json>>)
    ensures r.Ok? <==> j.JArr? || j == JObj(map[]) || j == JStr("")
    ensures j.JArr? ==> r == Ok(j.items)
    ensures r.Ok? && !j.JArr? ==> r.value == []
    ensures r.Err? ==> r.error.kind == TypeError
  {
    match j
    case JArr(items) => Ok(items)
    case JObj(fields) =>
      if fields == map[] then Ok([])
      else Err(Error(TypeError, "string indices must be integers"))
    case JStr(s) =>
      if s == "" then Ok([])
      else Err(Error(TypeError, "string indices must be integers"))
    case _ => Err(Error(TypeError, "object is not iterable"))
  }
}

=== FILE: openbaton.dfy ===
/** The OpenBaton NSD deployment client's configuration and response
    handling: settings from the rc file's variables, overridden by command-line
    arguments, validated in a fixed order; the password-grant token response;
    request URL and header shaping; and the id of a created resource. */
module OpenBaton {
  import opened Results
  import opened Text
  import opened JsonValues
  import opened Http

  const ApiVersion := "v1"
  const AuthUser := "openbatonOSClient"
  const AuthPassword := "secret"

  /** The handler's settings; `None` where Python holds `None`. */
  datatype Settings = Settings(
    apiEntrypoint: Option<string>,
    username: Option<string>,
    password: Option<string>,
    projectId: Option<string>)

  /** The optional command-line values (`None` when not given). */
  datatype Args = Args(
    apiEntrypoint: Option<string>,
    username: Option<string>,
    password: Option<string>,
    projectId: Option<string>)

  /** Python truthiness of an optional string. */
  predicate Truthy(v: Option<string>) {
    v.Some? && v.value != ""
  }

  /** `os.getenv(key)` */
  function Getenv(env: map<string, string>, key: string): Option<string> {
    if key in env then Some(env[key]) else None
  }

  /** `set_env_variables` after the rc file is loaded into `env`: the
      entrypoint is "http://<ip>:<port>" when both are non-empty, else `None`;
      the other settings are the variables as they are. */
  function SetEnvVariables(env: map<string, string>): (s: Settings)
    ensures s.apiEntrypoint.Some? <==> Truthy(Getenv(env, "OB_NFVO_IP")) && Truthy(Getenv(env, "OB_NFVO_PORT"))
    ensures s.apiEntrypoint.Some? ==> s.apiEntrypoint.value == "http://" + env["OB_NFVO_IP"] + ":" + env["OB_NFVO_PORT"]
    ensures s.username == Getenv(env, "OB_USERNAME")
    ensures s.password == Getenv(env, "OB_PASSWORD")
    ensures s.projectId == Getenv(env, "OB_PROJECT_ID")
  {
    var ip := Getenv(env, "OB_NFVO_IP");
    var port := Getenv(env, "OB_NFVO_PORT");
    Settings(
      if Truthy(ip) && Truthy(port) then Some("http://" + ip.value + ":" + port.value) else None,
      Getenv(env, "OB_USERNAME"),
      Getenv(env, "OB_PASSWORD"),
      Getenv(env, "OB_PROJECT_ID"))
  }

  function Override(current: Option<string>, given: Option<string>): Option<string> {
    if Truthy(given) then given else current
  }

  /** `add_arguments`: a setting is replaced exactly by the truthy argument
      values; `None` and empty arguments leave it as it was. */
  function AddArguments(s: Settings, a: Args): (s': Settings)
    ensures Truthy(a.apiEntrypoint) ==> s'.apiEntrypoint == a.apiEntrypoint
    ensures !Truthy(a.apiEntrypoint) ==> s'.apiEntrypoint == s.apiEntrypoint
    ensures Truthy(a.username) ==> s'.username == a.username
    ensures !Truthy(a.username) ==> s'.username == s.username
    ensures Truthy(a.password) ==> s'.password == a.password
    ensures !Truthy(a.password) ==> s'.password == s.password
    ensures Truthy(a.projectId) ==> s'.projectId == a.projectId
    ensures !Truthy(a.projectId) ==> s'.projectId == s.projectId
  {
    Settings(
      Override(s.apiEntrypoint, a.apiEntrypoint),
      Override(s.username, a.username),
      Override(s.password, a.password),
      Override(s.projectId, a.projectId))
  }

  /** Applying the same arguments twice changes nothing more. */
  lemma AddArgumentsIdempotent(s: Settings, a: Args)
    ensures AddArguments(AddArguments(s, a), a) == AddArguments(s, a)
  {
  }

  /** The required settings, in the order they are reported. */
  const Required: seq<string> := ["api_entrypoint", "username", "password", "project_id"]

  /** `getattr(self, name)` for the required names. */
  function Setting(s: Settings, name: string): Option<string> {
    if name == "api_entrypoint" then s.apiEntrypoint
    else if name == "username" then s.username
    else if name == "password" then s.password
    else if name == "project_id" then s.projectId
    else None
  }

  /** `sub` lists some of the elements of `all`, in the same order. */
  ghost predicate SubsequenceOf(sub: seq<string>, all: seq<string>)
    decreases |all|
  {
    if |sub| == 0 then true
    else if |all| == 0 then false
    else if sub[0] == all[0] then SubsequenceOf(sub[1..], all[1..])
    else SubsequenceOf(sub, all[1..])
  }

  /** The loop collecting falsy settings among `names`, in order. */
  function MissingAmong(s: Settings, names: seq<string>): (m: seq<string>)
    ensures forall v :: v in m <==> v in names && !Truthy(Setting(s, v))
    ensures SubsequenceOf(m, names)
  {
    if |names| == 0 then []
    else
      var rest := MissingAmong(s, names[1..]);
      assert forall v :: v in names <==> v == names[0] || v in names[1..];
      if Truthy(Setting(s, names[0])) then
        assert |rest| == 0 || rest[0] != names[0] by {
          if |rest| > 0 { assert rest[0] in rest; }
        }
        rest
      else [names[0]] + rest
  }

  function MissingVariables(s: Settings): seq<string> {
    MissingAmong(s, Required)
  }

  /** With nothing set, every required name is reported, in the fixed order. */
  lemma AllMissingInOrder(s: Settings)
    requires forall v :: v in Required ==> !Truthy(Setting(s, v))
    ensures MissingVariables(s) == Required
  {
    NoneSetAllMissing(s, Required);
  }

  lemma {:induction false} NoneSetAllMissing(s: Settings, names: seq<string>)
    requires forall v :: v in names ==> !Truthy(Setting(s, v))
    ensures MissingAmong(s, names) == names
  {
    if |names| > 0 {
      assert names[0] in names;
      assert forall v :: v in names[1..] ==> v in names;
      NoneSetAllMissing(s, names[1..]);
      assert names == [names[0]] + names[1..];
    }
  }

  /** Settings that passed the checks. */
  datatype Validated = Validated(apiEntrypoint: string, username: string, password: string, projectId: string)

  const PasswordNotSet := Error(TypeError, "Password not set, use option --password to set it.")

  function MissingError(missing: seq<string>): Error {
    Error(TypeError, "Missing required variables: " + Join(missing, ", ") + ". Use -h to see how these can be set.")
  }

  predicate PasswordSentinel(s: Settings) {
    s.password == Some("$password") || s.password.None?
  }

  /** `check_variables`: the password sentinel is reported first; otherwise
      every falsy required setting is reported, in the fixed order. */
  function CheckVariables(s: Settings): (r: Result<Validated>)
    ensures PasswordSentinel(s) ==> r == Err(PasswordNotSet)
    ensures !PasswordSentinel(s) && |MissingVariables(s)| > 0 ==> r == Err(MissingError(MissingVariables(s)))
    ensures r.Ok? <==> !PasswordSentinel(s) && forall v :: v in Required ==> Truthy(Setting(s, v))
    ensures r.Ok? ==> && Some(r.value.apiEntrypoint) == s.apiEntrypoint
                      && Some(r.value.username) == s.username
                      && Some(r.value.password) == s.password
                      && Some(r.value.projectId) == s.projectId
    ensures r.Ok? ==> r.value.apiEntrypoint != "" && r.value.username != "" &&
                      r.value.password != "" && r.value.projectId != ""
  {
    var missing := MissingVariables(s);
    if PasswordSentinel(s) then Err(PasswordNotSet)
    else if |missing| > 0 then
      assert missing[0] in missing;
      Err(MissingError(missing))
    else
      assert forall v :: v in Required ==> v !in missing;
      assert Required[0] in Required && Required[1] in Required && Required[2] in Required && Required[3] in Required;
      Ok(Validated(s.apiEntrypoint.value, s.username.value, s.password.value, s.projectId.value))
  }

  /** With every argument given and a real password, the rc file's values
      do not matter. */
  lemma ArgumentsTakePrecedence(env: map<string, string>, a: Args)
    requires Truthy(a.apiEntrypoint) && Truthy(a.username) && Truthy(a.password) && Truthy(a.projectId)
    requires a.password != Some("$password")
    ensures CheckVariables(AddArguments(SetEnvVariables(env), a)) ==
            Ok(Validated(a.apiEntrypoint.value, a.username.value, a.password.value, a.projectId.value))
  {
    var s := AddArguments(SetEnvVariables(env), a);
    assert forall v :: v in Required ==> Truthy(Setting(s, v));
  }

  /** What `retrieve_token` sends: the form body unencoded, and HTTP basic
      authentication with the fixed client credentials. */
  datatype TokenRequest = TokenRequest(url: string, body: string, headers: Headers, user: string, secret: string)

  function TokenRequestFor(v: Validated): (t: TokenRequest)
    ensures t.url == v.apiEntrypoint + "/oauth/token"
    ensures t.user == AuthUser && t.secret == AuthPassword
    ensures "Content-Type" in t.headers && t.headers["Content-Type"] == "application/x-www-form-urlencoded"
    // the password grant's three fields, in order, the credentials as given
    ensures var u, p := |v.username|, |v.password|;
      && |t.body| == 9 + u + 10 + p + 20
      && t.body[..9] == "username=" && t.body[9..9 + u] == v.username
      && t.body[9 + u..19 + u] == "&password=" && t.body[19 + u..19 + u + p] == v.password
      && t.body[19 + u + p..] == "&grant_type=password"
  {
    TokenRequest(
      v.apiEntrypoint + "/oauth/token",
      "username=" + v.username + "&password=" + v.password + "&grant_type=password",
      map["Content-Type" := "application/x-www-form-urlencoded", "Accept" := "application/json"],
      AuthUser, AuthPassword)
  }

  function UnexpectedStatus(status: int): Error {
    Error(GenericException, "Unexpected HTTP response status: " + Decimal(status))
  }

  /** `retrieve_token`'s reply handling: 200 yields the `value` field as the
      token; 400 raises with the reply's `detailMessage`; any other status
      raises with the status code. */
  function RetrieveToken(reply: HttpReply): (r: Result<Json>)
    ensures r.Ok? <==> reply.status == 200 && reply.body.JObj? && "value" in reply.body.fields
    ensures r.Ok? ==> r.value == reply.body.fields["value"]
    ensures reply.status == 200 ==> r == Subscript(reply.body, "value")
    ensures r.Err? && r.error.kind == GenericException <==>
              reply.status != 200 && (reply.status != 400 || (Subscript(reply.body, "detailMessage").Ok? &&
                                                               Subscript(reply.body, "detailMessage").value.JStr?))
    ensures r.Err? && r.error.kind != GenericException ==> r.error.kind in {KeyError, TypeError}
    ensures reply.status == 400 && Subscript(reply.body, "detailMessage").Ok? &&
            Subscript(reply.body, "detailMessage").value.JStr? ==>
              r == Err(Error(GenericException, "Authentication failed: " + Subscript(reply.body, "detailMessage").value.s))
    ensures reply.status != 200 && reply.status != 400 ==> r == Err(UnexpectedStatus(reply.status))
  {
    if reply.status != 200 then
      if reply.status == 400 then
        var detail :- Subscript(reply.body, "detailMessage");
        match detail
        case JStr(text) => Err(Error(GenericException, "Authentication failed: " + text))
        case _ => Err(Error(TypeError, "can only concatenate str to str"))
      else Err(UnexpectedStatus(reply.status))
    else Subscript(reply.body, "value")
  }

  /** A request as handed to `requests`. */
  datatype Outgoing = Outgoing(verb: Method, url: string, headers: Headers)

  /** `request(method, path, headers=...)`: the URL under the versioned API
      root; the bearer token and project id, each overridden by a caller
      header of the same name. A token that is not a string cannot be
      concatenated and raises `TypeError`. */
  function Request(v: Validated, token: Json, verb: Method, path: string, headers: Option<Headers>)
    : (r: Result<Outgoing>)
    ensures r.Ok? <==> token.JStr?
    ensures r.Ok? ==> r.value.verb == verb && r.value.url == v.apiEntrypoint + "/api/v1" + path
    ensures r.Ok? ==> r.value.headers.Keys ==
                        {"Authorization", "project-id"} + (if headers.Some? then headers.value.Keys else {})
    ensures r.Ok? && headers.Some? ==> forall k :: k in headers.value ==> r.value.headers[k] == headers.value[k]
    ensures r.Ok? && (headers.None? || "Authorization" !in headers.value) ==>
              r.value.headers["Authorization"] == "Bearer " + token.s
    ensures r.Ok? && (headers.None? || "project-id" !in headers.value) ==>
              r.value.headers["project-id"] == v.projectId
  {
    match token
    case JStr(t) =>
      var base := map["Authorization" := "Bearer " + t, "project-id" := v.projectId];
      var merged := match headers case None => base case Some(h) => base + h;
      Ok(Outgoing(verb, v.apiEntrypoint + "/api/" + ApiVersion + path, merged))
    case _ => Err(Error(TypeError, "can only concatenate str to str"))
  }

  /** `get_created_id`: the `id` of a 201 reply; any other status raises. */
  function GetCreatedId(reply: HttpReply): (r: Result<Json>)
    ensures r.Ok? <==> reply.status == 201 && reply.body.JObj? && "id" in reply.body.fields
    ensures r.Ok? ==> r.value == reply.body.fields["id"]
    ensures reply.status != 201 ==> r == Err(UnexpectedStatus(reply.status))
  {
    if reply.status != 201 then Err(UnexpectedStatus(reply.status))
    else Subscript(reply.body, "id")
  }

  /** The handler's constructor: environment, then arguments, then the
      checks, then the token request. The token endpoint is a function from
      what was sent to the reply it draws. */
  function NewApiHandler(env: map<string, string>, a: Args, endpoint: TokenRequest -> HttpReply)
    : (r: Result<(Validated, Json)>)
    ensures r.Ok? <==>
              && CheckVariables(AddArguments(SetEnvVariables(env), a)).Ok?
              && RetrieveToken(endpoint(TokenRequestFor(CheckVariables(AddArguments(SetEnvVariables(env), a)).value))).Ok?
    ensures r.Ok? ==> CheckVariables(AddArguments(SetEnvVariables(env), a)) == Ok(r.value.0)
    // the token is read from the reply to the request carrying the checked credentials
    ensures r.Ok? ==>
              var reply := endpoint(TokenRequestFor(r.value.0));
              reply.status == 200 && Subscript(reply.body, "value") == Ok(r.value.1)
    ensures CheckVariables(AddArguments(SetEnvVariables(env), a)).Err? ==>
              r == Err(CheckVariables(AddArguments(SetEnvVariables(env), a)).error)
    ensures CheckVariables(AddArguments(SetEnvVariables(env), a)).Ok? ==>
              var reply := endpoint(TokenRequestFor(CheckVariables(AddArguments(SetEnvVariables(env), a)).value));
              RetrieveToken(reply).Err? ==> r == Err(RetrieveToken(reply).error)
  {
    var v :- CheckVariables(AddArguments(SetEnvVariables(env), a));
    var token :- RetrieveToken(endpoint(TokenRequestFor(v)));
    Ok((v, token))
  }

  /** A constructed handler shapes requests under the entrypoint the
      arguments or, failing them, the rc variables gave, and can do so
      exactly when the granted token is a string. */
  lemma HandlerRequests(env: map<string, string>, a: Args, endpoint: TokenRequest -> HttpReply,
                        verb: Method, path: string, headers: Option<Headers>)
    requires NewApiHandler(env, a, endpoint).Ok?
    ensures var h := NewApiHandler(env, a, endpoint).value;
      var out := Request(h.0, h.1, verb, path, headers);
      && (out.Ok? <==> endpoint(TokenRequestFor(h.0)).body.fields["value"].JStr?)
      && (out.Ok? ==>
            (out.value.url ==
               (if Truthy(a.apiEntrypoint) then a.apiEntrypoint.value
                else "http://" + env["OB_NFVO_IP"] + ":" + env["OB_NFVO_PORT"]) + "/api/v1" + path))
  {
    var s := AddArguments(SetEnvVariables(env), a);
    var h := NewApiHandler(env, a, endpoint).value;
    assert Some(h.0.apiEntrypoint) == s.apiEntrypoint;
  }
}

=== FILE: resources.dfy ===
/** The OpenStack resource check: collect the flavour keys an NSD asks for,
    sum what those flavours need, and pick the first hypervisor with enough
    free memory, vCPUs and local disk. The compute service's flavour and
    hypervisor listings are parameters. */
module Resources {
  import opened Results
  import opened JsonValues
  import opened Text

  // ---------------------------------------------------------------------
  // Flavour keys of an NSD

  /** A flavour entry the comprehension reads: a dict holding a string
      `flavour_key`, next to any other keys. */
  ghost predicate KeyedFlavour(f: Json) {
    f.JObj? && "flavour_key" in f.fields && f.fields["flavour_key"].JStr?
  }

  /** A vnfd the loop body accepts: a dict with a `name` and an iterable
      `deployment_flavour` whose entries are keyed flavours; other keys may
      be present anywhere. */
  ghost predicate WellFormedVnfd(v: Json) {
    && v.JObj? && "name" in v.fields && "deployment_flavour" in v.fields
    && KeyedItems(v.fields["deployment_flavour"]).Ok?
    && (var fs := KeyedItems(v.fields["deployment_flavour"]).value;
        forall i :: 0 <= i < |fs| ==> KeyedFlavour(fs[i]))
  }

  /** Reference: the flavour keys of a well-formed vnfd, in listed order. */
  ghost function VnfdKeys(v: Json): seq<string>
    requires WellFormedVnfd(v)
  {
    var fs := KeyedItems(v.fields["deployment_flavour"]).value;
    seq(|fs|, i requires 0 <= i < |fs| => fs[i].fields["flavour_key"].s)
  }

  /** An NSD document whose `vnfd` entry iterates over well-formed vnfds. */
  ghost predicate WellFormedNsd(data: Json) {
    && data.JObj? && "vnfd" in data.fields
    && KeyedItems(data.fields["vnfd"]).Ok?
    && (var vs := KeyedItems(data.fields["vnfd"]).value;
        forall i :: 0 <= i < |vs| ==> WellFormedVnfd(vs[i]))
  }

  /** Reference: every vnfd's flavour keys, concatenated in vnfd order. */
  ghost function ConcatKeys(vnfds: seq<Json>): seq<string>
    requires forall i :: 0 <= i < |vnfds| ==> WellFormedVnfd(vnfds[i])
  {
    if |vnfds| == 0 then [] else VnfdKeys(vnfds[0]) + ConcatKeys(vnfds[1..])
  }

  ghost function NsdKeys(data: Json): seq<string>
    requires WellFormedNsd(data)
  {
    ConcatKeys(KeyedItems(data.fields["vnfd"]).value)
  }

  /** `[flavor["flavour_key"] for flavor in flavours]`: every entry's key,
      or the error of the first entry without one. */
  function FlavourKeyValues(flavours: seq<Json>): (r: Result<seq<Json>>)
    ensures r.Ok? <==> forall i :: 0 <= i < |flavours| ==> Subscript(flavours[i], "flavour_key").Ok?
    ensures r.Ok? ==> |r.value| == |flavours|
    ensures r.Ok? ==> forall i :: 0 <= i < |flavours| ==> Subscript(flavours[i], "flavour_key") == Ok(r.value[i])
    ensures r.Err? ==> exists i :: (0 <= i < |flavours| && Subscript(flavours[i], "flavour_key") == Err(r.error) &&
                                    forall j :: 0 <= j < i ==> Subscript(flavours[j], "flavour_key").Ok?)
    ensures r.Err? ==> r.error.kind in {KeyError, TypeError}
  {
    if |flavours| == 0 then Ok([])
    else
      assert forall i :: 1 <= i < |flavours| ==> flavours[i] == flavours[1..][i - 1];
      match Subscript(flavours[0], "flavour_key")
      case Err(e) => Err(e)
      case Ok(key) =>
        var rest := FlavourKeyValues(flavours[1..]);
        if rest.Err? then
          assert exists i :: (0 <= i < |flavours| - 1 && Subscript(flavours[1..][i], "flavour_key") == Err(rest.error) &&
                              forall j :: 0 <= j < i ==> Subscript(flavours[1..][j], "flavour_key").Ok?);
          Err(rest.error)
        else
          Ok([key] + rest.value)
  }

  /** The keys as `", ".join` accepts them: every one a string. */
  function Joinable(keys: seq<Json>): (r: Result<seq<string>>)
    ensures r.Ok? <==> forall i :: 0 <= i < |keys| ==> keys[i].JStr?
    ensures r.Ok? ==> |r.value| == |keys| && forall i :: 0 <= i < |keys| ==> keys[i] == JStr(r.value[i])
    ensures r.Err? ==> r.error.kind == TypeError
  {
    if forall i :: 0 <= i < |keys| ==> keys[i].JStr? then
      Ok(seq(|keys|, i requires 0 <= i < |keys| && keys[i].JStr? => keys[i].s))
    else
      Err(Error(TypeError, "sequence item: expected str instance"))
  }

  /** One iteration over a vnfd: its flavour keys, then the `name` read by
      the progress line, which also joins the keys with ", ". */
  function VnfdFlavours(vnfd: Json): (r: Result<seq<string>>)
    ensures r.Ok? <==> WellFormedVnfd(vnfd)
    ensures r.Ok? ==> r.value == VnfdKeys(vnfd)
    ensures !vnfd.JObj? ==> r.Err? && r.error.kind == TypeError
    ensures vnfd.JObj? && "deployment_flavour" !in vnfd.fields ==> r == Err(MissingKey("deployment_flavour"))
    ensures r.Err? ==> r.error.kind in {KeyError, TypeError}
  {
    var listed :- Subscript(vnfd, "deployment_flavour");
    var flavours :- KeyedItems(listed);
    var keys :- FlavourKeyValues(flavours);
    var _ :- Subscript(vnfd, "name");
    Joinable(keys)
  }

  /** The loop over the vnfds, extending the list in vnfd order. */
  function VnfdsFlavours(vnfds: seq<Json>): (r: Result<seq<string>>)
    ensures r.Ok? <==> forall i :: 0 <= i < |vnfds| ==> WellFormedVnfd(vnfds[i])
    ensures r.Ok? ==> r.value == ConcatKeys(vnfds)
    ensures r.Err? ==> exists i :: (0 <= i < |vnfds| && VnfdFlavours(vnfds[i]) == Err(r.error) &&
                                    forall j :: 0 <= j < i ==> WellFormedVnfd(vnfds[j]))
    ensures r.Err? ==> r.error.kind in {KeyError, TypeError}
  {
    if |vnfds| == 0 then Ok([])
    else
      assert forall i :: 1 <= i < |vnfds| ==> vnfds[i] == vnfds[1..][i - 1];
      match VnfdFlavours(vnfds[0])
      case Err(e) => Err(e)
      case Ok(first) =>
        var rest := VnfdsFlavours(vnfds[1..]);
        if rest.Err? then
          assert exists i :: (0 <= i < |vnfds| - 1 && VnfdFlavours(vnfds[1..][i]) == Err(rest.error) &&
                              forall j :: 0 <= j < i ==> WellFormedVnfd(vnfds[1..][j]));
          Err(rest.error)
        else
          Ok(first + rest.value)
  }

  /** The body of the `try` block: the vnfds listed under `vnfd`, scanned. */
  function ScanNsd(data: Json): (r: Result<seq<string>>)
    ensures r.Ok? <==> WellFormedNsd(data)
    ensures r.Ok? ==> r.value == NsdKeys(data)
    ensures data.JObj? && "vnfd" !in data.fields ==> r == Err(MissingKey("vnfd"))
    ensures !data.JObj? ==> r.Err? && r.error.kind == TypeError
    ensures r.Err? ==> r.error.kind in {KeyError, TypeError}
  {
    var listed :- Subscript(data, "vnfd");
    var vnfds :- KeyedItems(listed);
    VnfdsFlavours(vnfds)
  }

  const MissingKeyPrefix := "NSD json is missing key: "
  const InvalidPrefix := "NSD json is invalid. Exception message: "

  /** `get_flavors_from_nsd` on the loaded document: a `KeyError` becomes
      "missing key", a `TypeError` becomes "invalid", both as `ValueError`. */
  function GetFlavorsFromNsd(data: Json): (r: Result<seq<string>>)
    ensures r.Ok? <==> WellFormedNsd(data)
    ensures r.Ok? ==> r.value == NsdKeys(data)
    ensures r.Err? ==> r.error.kind == ValueError && ScanNsd(data).Err?
    ensures r.Err? && ScanNsd(data).error.kind == KeyError ==>
              r.error.message == MissingKeyPrefix + ScanNsd(data).error.message
    ensures r.Err? && ScanNsd(data).error.kind == TypeError ==>
              r.error.message == InvalidPrefix + ScanNsd(data).error.message
    ensures data.JObj? && "vnfd" !in data.fields ==> r == Err(Error(ValueError, MissingKeyPrefix + Quote("vnfd")))
  {
    match ScanNsd(data)
    case Ok(keys) => Ok(keys)
    case Err(Error(KeyError, detail)) => Err(Error(ValueError, MissingKeyPrefix + detail))
    case Err(Error(_, detail)) => Err(Error(ValueError, InvalidPrefix + detail))
  }

  /** The two prefixes tell the error kinds apart. */
  lemma PrefixesDiffer(d1: string, d2: string)
    ensures MissingKeyPrefix + d1 != InvalidPrefix + d2
  {
    assert (MissingKeyPrefix + d1)[12] != (InvalidPrefix + d2)[12];
  }

  /** The flavours of two runs of vnfds are the first run's followed by the
      second's: the list is extended vnfd by vnfd. */
  lemma WellFormedAppend(a: seq<Json>, b: seq<Json>)
    requires forall i :: 0 <= i < |a| ==> WellFormedVnfd(a[i])
    requires forall i :: 0 <= i < |b| ==> WellFormedVnfd(b[i])
    ensures forall i :: 0 <= i < |a + b| ==> WellFormedVnfd((a + b)[i])
  {
    forall i | 0 <= i < |a + b|
      ensures WellFormedVnfd((a + b)[i])
    {
      if i < |a| {
        assert (a + b)[i] == a[i];
      } else {
        assert (a + b)[i] == b[i - |a|];
      }
    }
  }

  lemma {:induction false} ConcatKeysAppend(a: seq<Json>, b: seq<Json>)
    requires forall i :: 0 <= i < |a| ==> WellFormedVnfd(a[i])
    requires forall i :: 0 <= i < |b| ==> WellFormedVnfd(b[i])
    ensures forall i :: 0 <= i < |a + b| ==> WellFormedVnfd((a + b)[i])
    ensures ConcatKeys(a + b) == ConcatKeys(a) + ConcatKeys(b)
  {
    WellFormedAppend(a, b);
    if |a| == 0 {
      assert a + b == b;
    } else {
      var tail := a[1..];
      forall i | 0 <= i < |tail|
        ensures WellFormedVnfd(tail[i])
      {
        assert tail[i] == a[i + 1];
      }
      assert (a + b)[0] == a[0];
      assert (a + b)[1..] == tail + b;
      ConcatKeysAppend(tail, b);
      calc {
        ConcatKeys(a + b);
        VnfdKeys(a[0]) + ConcatKeys(tail + b);
        VnfdKeys(a[0]) + (ConcatKeys(tail) + ConcatKeys(b));
        (VnfdKeys(a[0]) + ConcatKeys(tail)) + ConcatKeys(b);
      }
    }
  }

  // ---------------------------------------------------------------------
  // Requirements

  /** A compute flavour; `swap` is `None` when the service reports it empty. */
  datatype Flavor = Flavor(name: string, ram: int, vcpus: int, disk: int, ephemeral: int, swap: Option<int>)

  datatype Requirements = Requirements(ram: int, vcpus: int, disk: int)

  const NoRequirements := Requirements(0, 0, 0)

  /** `0 if not flavor.swap else flavor.swap` */
  function SwapOf(f: Flavor): int {
    match f.swap
    case None => 0
    case Some(n) => n
  }

  /** `add_requirement`: memory and vCPUs add up; disk adds the root disk,
      the ephemeral disk and the swap, an empty swap counting as 0. */
  function AddRequirement(req: Requirements, f: Flavor): (r: Requirements)
    ensures r.ram == req.ram + f.ram
    ensures r.vcpus == req.vcpus + f.vcpus
    ensures f.swap.None? ==> r.disk == req.disk + f.disk + f.ephemeral
    ensures f.swap.Some? ==> r.disk == req.disk + f.disk + f.ephemeral + f.swap.value
  {
    Requirements(req.ram + f.ram, req.vcpus + f.vcpus, req.disk + f.disk + f.ephemeral + SwapOf(f))
  }

  function Plus(a: Requirements, b: Requirements): Requirements {
    Requirements(a.ram + b.ram, a.vcpus + b.vcpus, a.disk + b.disk)
  }

  /** Reference sum: what a list of flavours needs in all. */
  function Total(fs: seq<Flavor>): Requirements {
    if |fs| == 0 then NoRequirements else Plus(AddRequirement(NoRequirements, fs[0]), Total(fs[1..]))
  }

  lemma {:induction false} TotalAppend(xs: seq<Flavor>, ys: seq<Flavor>)
    ensures Total(xs + ys) == Plus(Total(xs), Total(ys))
  {
    if |xs| == 0 {
      assert xs + ys == ys;
    } else {
      var head := AddRequirement(NoRequirements, xs[0]);
      assert (xs + ys)[0] == xs[0];
      assert (xs + ys)[1..] == xs[1..] + ys;
      assert Total(xs + ys) == Plus(head, Total(xs[1..] + ys));
      TotalAppend(xs[1..], ys);
      assert Total(xs) == Plus(head, Total(xs[1..]));
    }
  }

  /** Adding one more flavour to a running total is the total of the longer list. */
  lemma TotalExtend(xs: seq<Flavor>, f: Flavor)
    ensures Total(xs + [f]) == AddRequirement(Total(xs), f)
  {
    TotalAppend(xs, [f]);
  }

  /** Swapping two runs of requested flavours leaves the total unchanged. */
  lemma TotalOrderIndependent(xs: seq<Flavor>, ys: seq<Flavor>)
    ensures Total(xs + ys) == Total(ys + xs)
  {
    TotalAppend(xs, ys);
    TotalAppend(ys, xs);
  }

  /** Taking one flavour out of a list takes exactly its own needs off the
      total. */
  lemma {:induction false} TotalRemove(ys: seq<Flavor>, i: nat)
    requires i < |ys|
    ensures Total(ys) == Plus(AddRequirement(NoRequirements, ys[i]), Total(ys[..i] + ys[i + 1..]))
  {
    var before, y, after := ys[..i], ys[i], ys[i + 1..];
    assert ys == (before + [y]) + after;
    TotalAppend(before + [y], after);
    TotalExtend(before, y);
    TotalAppend(before, after);
    var b, a := Total(before), Total(after);
    assert Total(ys) == Plus(AddRequirement(b, y), a);
    assert Total(before + after) == Plus(b, a);
  }

  /** Any reordering of the requested flavours, repeats kept, needs the same
      total. */
  lemma {:induction false} TotalPermutation(xs: seq<Flavor>, ys: seq<Flavor>)
    requires multiset(xs) == multiset(ys)
    ensures Total(xs) == Total(ys)
    decreases |xs|
  {
    if |xs| == 0 {
      assert |ys| == |multiset(ys)| == 0;
    } else {
      var x := xs[0];
      assert x in multiset(ys) by {
        assert xs == [x] + xs[1..];
      }
      var i :| 0 <= i < |ys| && ys[i] == x;
      var rest := ys[..i] + ys[i + 1..];
      assert multiset(xs[1..]) == multiset(rest) by {
        assert ys == ys[..i] + ([x] + ys[i + 1..]);
        assert multiset(ys) == multiset(ys[..i]) + multiset{x} + multiset(ys[i + 1..]);
        assert multiset(rest) == multiset(ys[..i]) + multiset(ys[i + 1..]);
        assert xs == [x] + xs[1..];
        assert multiset(xs) == multiset{x} + multiset(xs[1..]);
        assert multiset(xs[1..]) == multiset(xs) - multiset{x};
        assert multiset(rest) == multiset(ys) - multiset{x};
      }
      TotalPermutation(xs[1..], rest);
      TotalRemove(ys, i);
    }
  }

  predicate Known(catalogue: seq<Flavor>, name: string) {
    exists i :: 0 <= i < |catalogue| && catalogue[i].name == name
  }

  function NoFlavor(name: string): Error {
    Error(ValueError, "No flavor was found with name: " + name)
  }

  /** `get_flavor_by_name`: the first listed flavour with that name. */
  function GetFlavorByName(catalogue: seq<Flavor>, name: string): (r: Result<Flavor>)
    ensures r.Ok? <==> Known(catalogue, name)
    ensures r.Ok? ==> exists i :: (0 <= i < |catalogue| && catalogue[i] == r.value && r.value.name == name &&
                                   forall j :: 0 <= j < i ==> catalogue[j].name != name)
    ensures r.Err? ==> r.error == NoFlavor(name)
  {
    if |catalogue| == 0 then Err(NoFlavor(name))
    else if catalogue[0].name == name then Ok(catalogue[0])
    else
      var r := GetFlavorByName(catalogue[1..], name);
      assert forall j :: 1 <= j < |catalogue| ==> catalogue[j] == catalogue[1..][j - 1];
      r
  }

  /** The flavours the requested names resolve to. */
  function Resolve(catalogue: seq<Flavor>, names: seq<string>): seq<Flavor>
    requires forall i :: 0 <= i < |names| ==> Known(catalogue, names[i])
  {
    seq(|names|, i requires 0 <= i < |names| && Known(catalogue, names[i]) => GetFlavorByName(catalogue, names[i]).value)
  }

  /** Resolving one more requested name appends that name's flavour. */
  lemma ResolveSnoc(catalogue: seq<Flavor>, prefix: seq<string>, name: string)
    requires forall k :: 0 <= k < |prefix| ==> Known(catalogue, prefix[k])
    requires Known(catalogue, name)
    ensures forall k :: 0 <= k < |prefix + [name]| ==> Known(catalogue, (prefix + [name])[k])
    ensures Resolve(catalogue, prefix + [name]) == Resolve(catalogue, prefix) + [GetFlavorByName(catalogue, name).value]
  {
  }

  /** `get_system_requirements_for_flavors`: starting from zero, add each
      requested flavour in turn; an unknown name raises. */
  method GetSystemRequirementsForFlavors(catalogue: seq<Flavor>, requested: seq<string>) returns (r: Result<Requirements>)
    ensures r.Ok? <==> forall i :: 0 <= i < |requested| ==> Known(catalogue, requested[i])
    ensures r.Ok? ==> r.value == Total(Resolve(catalogue, requested))
    ensures r.Err? ==> exists i :: (0 <= i < |requested| && !Known(catalogue, requested[i]) &&
                                   r.error == NoFlavor(requested[i]) &&
                                   forall j :: 0 <= j < i ==> Known(catalogue, requested[j]))
  {
    var requirements := NoRequirements;
    var i := 0;
    while i < |requested|
      invariant 0 <= i <= |requested|
      invariant forall k :: 0 <= k < i ==> Known(catalogue, requested[k])
      invariant requirements == Total(Resolve(catalogue, requested[..i]))
    {
      var flavor := GetFlavorByName(catalogue, requested[i]);
      if flavor.Err? {
        return Err(flavor.error);
      }
      assert requested[..i + 1] == requested[..i] + [requested[i]];
      ResolveSnoc(catalogue, requested[..i], requested[i]);
      TotalExtend(Resolve(catalogue, requested[..i]), flavor.value);
      requirements := AddRequirement(requirements, flavor.value);
      i := i + 1;
    }
    assert requested[..i] == requested;
    return Ok(requirements);
  }

  // ---------------------------------------------------------------------
  // Hypervisor placement

  datatype Hypervisor = Hypervisor(
    id: string,
    name: string,
    memoryFree: int,
    vcpus: int,
    vcpusUsed: int,
    localDiskFree: int)

  /** Free memory, free vCPUs and free local disk all cover the requirements. */
  predicate Fits(h: Hypervisor, req: Requirements) {
    && h.memoryFree >= req.ram
    && h.vcpus - h.vcpusUsed >= req.vcpus
    && h.localDiskFree >= req.disk
  }

  /** Componentwise at most. */
  predicate Within(small: Requirements, big: Requirements) {
    small.ram <= big.ram && small.vcpus <= big.vcpus && small.disk <= big.disk
  }

  const NoHypervisor := Error(ValueError, "No hypervisor with required resources available")

  /** The index of the first hypervisor that fits, or the list's length. */
  function Placement(hs: seq<Hypervisor>, req: Requirements): (i: nat)
    ensures i <= |hs|
    ensures i < |hs| ==> Fits(hs[i], req)
    ensures forall j :: 0 <= j < i ==> !Fits(hs[j], req)
  {
    if |hs| == 0 then 0
    else if Fits(hs[0], req) then 0
    else
      var i := 1 + Placement(hs[1..], req);
      assert forall j :: 1 <= j < |hs| ==> hs[j] == hs[1..][j - 1];
      i
  }

  /** `check_hypervisor_resources`: the first hypervisor that fits, else
      `ValueError`. (The issue it files before raising is not modelled.) */
  function CheckHypervisorResources(hs: seq<Hypervisor>, req: Requirements): (r: Result<Hypervisor>)
    ensures r.Ok? <==> exists i :: 0 <= i < |hs| && Fits(hs[i], req)
    ensures r.Ok? ==> exists i :: (0 <= i < |hs| && hs[i] == r.value && Fits(r.value, req) &&
                                   forall j :: 0 <= j < i ==> !Fits(hs[j], req))
    ensures r.Err? ==> r.error == NoHypervisor
  {
    var i := Placement(hs, req);
    if i < |hs| then Ok(hs[i]) else Err(NoHypervisor)
  }

  /** Smaller requirements are placed no later: every hypervisor accepted for
      some requirements accepts componentwise-smaller ones, so the first fit
      can only move forward. */
  lemma PlacementMonotone(hs: seq<Hypervisor>, small: Requirements, big: Requirements)
    requires Within(small, big)
    ensures Placement(hs, small) <= Placement(hs, big)
    ensures CheckHypervisorResources(hs, big).Ok? ==> CheckHypervisorResources(hs, small).Ok?
  {
    var p := Placement(hs, big);
    if p < |hs| {
      assert Fits(hs[p], small);
    }
  }
}

=== FILE: results.dfy ===
/** Python exceptions as values: every operation of the model that can raise
    returns a `Result`, whose error carries the exception class and its text. */
module Results {

  /** The exception classes the modelled code raises or lets escape. */
  datatype ErrorKind =
    | ValueError
    | TypeError
    | KeyError
    | HttpError(status: int)    // `requests.HTTPError` from `raise_for_status`
    | GenericException          // a bare `Exception(...)`
    | ConnectionFailure         // the transport produced no response

  datatype Error = Error(kind: ErrorKind, message: string)

  /** Ok or raised; failure-compatible, so `:-` propagates an exception. */
  datatype Result<+T> = Ok(value: T) | Err(error: Error) {

    predicate IsFailure() {
      Err?
    }

    function PropagateFailure<U>(): Result<U>
      requires Err?
    {
      Err(error)
    }

    function Extract(): T
      requires Ok?
    {
      value
    }
  }

  datatype Option<+T> = None | Some(value: T)
}

=== FILE: text.dfy ===
/** The few Python string operations the modelled code relies on. */
module Text {

  /** `sep.join(parts)` */
  function Join(parts: seq<string>, sep: string): (r: string)
    ensures |parts| == 0 ==> r == ""
    ensures |parts| == 1 ==> r == parts[0]
  {
    if |parts| == 0 then ""
    else if |parts| == 1 then parts[0]
    else parts[0] + sep + Join(parts[1..], sep)
  }

  /** `s.endswith(suffix)` */
  predicate EndsWith(s: string, suffix: string) {
    |suffix| <= |s| && s[|s| - |suffix|..] == suffix
  }

  /** `str(n)` for a non-negative `int`: decimal digits, no leading zeros. */
  function NatDigits(n: nat): (r: string)
    ensures |r| >= 1
    ensures forall i :: 0 <= i < |r| ==> '0' <= r[i] <= '9'
  {
    var d := ['0' + (n % 10) as char];
    if n < 10 then d else NatDigits(n / 10) + d
  }

  /** `str(n)` for an `int`. */
  function Decimal(n: int): (r: string)
    ensures |r| >= 1
    ensures r[0] == '-' <==> n < 0
  {
    if n < 0 then "-" + NatDigits(-n) else NatDigits(n)
  }

  /** The `repr` of a string without quote characters in it. */
  function Quote(s: string): string {
    "'" + s + "'"
  }

  /** The `repr` of a list of such strings, as f-strings print it. */
  function ListRepr(items: seq<string>): string {
    "[" + Join(seq(|items|, i requires 0 <= i < |items| => Quote(items[i])), ", ") + "]"
  }
}
